=== FILE: README.md ===
# visualCaptcha challenge engine — a Dafny model

This project models the core of visualCaptcha's Python back end: the session
adapter (`visualcaptcha/Session.py`) and the challenge engine
(`visualcaptcha/Captcha.py`). The session adapter is a namespaced key/value
view over the host's session mapping. The engine generates a challenge: a
sample of image options stamped with random hex tokens, one valid image, one
valid audio and the data the page renders. It then validates answers against
that challenge and works out which asset file to stream.

Modules:

- `Wrappers` (`wrappers.dfy`): `Option`, the source's `None`.
- `SessionStore` (`session_store.dfy`): `Session.py`. The host mapping is a `map<string, map<string, V>>`; every operation returns the store as it is afterwards.
- `Hex` (`hex.dfy`): `utilRandomHex`. It turns given entropy bytes into a lower-case hex token; `Decode` is its inverse.
- `Text` (`text.dfy`): `re.sub` with a case-insensitive literal pattern, the only regular-expression use in the engine.
- `Randomness` (`randomness.dfy`): `random.shuffle` (Fisher-Yates) and `random.sample` (CPython's pool method), each driven by explicit draws.
- `Captcha` (`captcha.dfy`): the engine's data model, constructor, getters, validation, lookup by index, retry loops and `generate`.
- `Streaming` (`streaming.dfy`): `streamAudio` and `streamImage` up to the file read.

Every engine operation returns `Outcome<T>`, which is either `Returned(engine, value)` or `Raised(engine, fault)`. The engine is threaded through because every getter may create the missing namespace, a side effect of `Session.get`. A Python exception becomes a `Fault` and keeps the partial state written before the raise. All randomness arrives as an `Oracle` value:

- the shuffle's draws;
- the sample's draws;
- ten entropy bytes per token;
- the draws of the two retry loops.

Before any `generate`, the model keeps the source's behaviour:

- `validateImage`/`validateAudio` raise TypeError, because they index None.
- `getImageOptionAtIndex` raises TypeError, because it measures None.

The defaults of `Session`, `generate` and the two stream methods are Dafny default parameter values:

- the namespace `visualcaptcha`;
- `generate`'s five options;
- `streamAudio`'s `mp3`;
- `streamImage`'s non-retina request.

`Captcha.__init__`'s defaults (an empty assets path, no default images, no default audios) are not: `Captcha.New` takes all three explicitly.

## Model

| member | source | states |
|---|---|---|
| SessionStore.New | visualcaptcha/Session.py:3-5 | the adapter wraps the given host mapping under the given namespace |
| SessionStore.DefaultNamespaceIsVisualcaptcha | visualcaptcha/Session.py:3-5 | an adapter created without a namespace uses `visualcaptcha` |
| SessionStore.Clear | visualcaptcha/Session.py:7-8 | afterwards the namespace exists and is empty; no other host key changes |
| SessionStore.Touch | visualcaptcha/Session.py:11-12 | lazy initialisation creates the namespace, keeps what a reader sees, and is the identity once the namespace exists |
| SessionStore.Get | visualcaptcha/Session.py:10-14 | returns the namespaced value exactly when the key is present; the namespace exists afterwards with the same contents; other host keys are untouched |
| SessionStore.Set | visualcaptcha/Session.py:16-20 | the namespace afterwards is the old contents with just `key` mapped to `v`; other host keys are untouched |
| SessionStore.GetOnFreshHost | visualcaptcha/Session.py:10-14 | on a host without the namespace, `get` returns None and leaves an empty namespace |
| SessionStore.GetAfterSet | visualcaptcha/Session.py:16-20 | `set(k, v)` then `get(k)` returns `v` |
| SessionStore.SetLeavesOtherKeys | visualcaptcha/Session.py:16-20 | `set(k, v)` does not change what `get(k')` returns for any other key |
| SessionStore.GetAfterClear | visualcaptcha/Session.py:7-14 | after `clear`, every key reads as None |
| SessionStore.GetTwice | visualcaptcha/Session.py:10-14 | a second `get(k)` returns the same value and leaves the store as the first left it |
| SessionStore.SetOnFreshHost | visualcaptcha/Session.py:16-20 | `set` on a host without the namespace creates exactly `{k: v}` |
| SessionStore.FramedTransitive | visualcaptcha/Session.py:7-20 | confinement to the namespace survives any chain of adapter calls |
| Hex.Encode | visualcaptcha/Captcha.py:199-201 | a token has two characters per entropy byte, each a hex digit |
| Hex.RandomHex | visualcaptcha/Captcha.py:199-201 | `utilRandomHex(count)` has length `2 * count` and decodes back to its entropy |
| Hex.DecodeEncode | visualcaptcha/Captcha.py:199-201 | decoding a token gives back the entropy bytes |
| Hex.EncodeInjective | visualcaptcha/Captcha.py:199-201 | equal tokens come only from equal entropy |
| Text.ReplaceAll | visualcaptcha/Captcha.py:114 | the case-insensitive substitution keeps the length when the pattern and replacement have equal length, and never empties a non-empty string |
| Text.ReplaceAllClean | visualcaptcha/Captcha.py:114 | a string with no occurrence of the pattern comes back unchanged |
| Text.ReplaceAllCleanPrefix | visualcaptcha/Captcha.py:114 | a prefix in which no occurrence starts is copied through |
| Text.ReplaceExtension | visualcaptcha/Captcha.py:112-114 | when the only occurrence is the final extension, the result is the stem plus the replacement |
| Text.ReplaceAllLeavesNoMatch | visualcaptcha/Captcha.py:114 | no occurrence of the pattern is left after the substitution when the replacement cannot start one and its first character is not among the pattern's later ones |
| Randomness.ShuffleFrom | visualcaptcha/Captcha.py:57-58 | each run of the Fisher-Yates swaps gives a rearrangement of the same elements |
| Randomness.Shuffle | visualcaptcha/Captcha.py:57-58 | `random.shuffle` keeps the length and the multiset of the catalog |
| Randomness.SampleFrom | visualcaptcha/Captcha.py:60-61 | the picks come from distinct positions: their multiset is contained in the pool's |
| Randomness.Sample | visualcaptcha/Captcha.py:60-61 | `random.sample(pop, k)` returns `k` elements drawn without replacement |
| Captcha.New | visualcaptcha/Captcha.py:14-36 | the assets path falls back to the module's `assets` directory, and each empty catalog is read from that path's JSON file |
| Captcha.GetImageOptions | visualcaptcha/Captcha.py:176-178 | returns the stored image list; the read only initialises the namespace |
| Captcha.GetValidImageOption | visualcaptcha/Captcha.py:156-158 | returns the stored valid image; the read only initialises the namespace |
| Captcha.GetValidAudioOption | visualcaptcha/Captcha.py:160-162 | returns the stored valid audio; the read only initialises the namespace |
| Captcha.GetAudioOption | visualcaptcha/Captcha.py:187-189 | returns the same as `getValidAudioOption` |
| Captcha.GetFrontendData | visualcaptcha/Captcha.py:152-154 | returns the stored frontend data; the read only initialises the namespace |
| Captcha.ValidateImage | visualcaptcha/Captcha.py:164-168 | raises TypeError exactly when no valid image is stored; otherwise true iff the answer equals the valid image's token |
| Captcha.ValidateAudio | visualcaptcha/Captcha.py:170-174 | raises TypeError exactly when no valid audio is stored; otherwise true iff the answer equals the valid audio's value |
| Captcha.ImageOptionAtIndexAsWritten | visualcaptcha/Captcha.py:180-185 | with no list, TypeError; at `index == len(images)`, IndexError |
| Captcha.ImageOptionAtIndex | visualcaptcha/Captcha.py:180-185 | with no list, TypeError; otherwise `images[index]` below the length and None from the length on |
| Captcha.AtIndexAsWrittenDiffersOnlyAtLength | visualcaptcha/Captcha.py:185 | the source's bound and the intended bound agree on every index except `len(images)` |
| Captcha.Resample | visualcaptcha/Captcha.py:72-88 | the loop ends at the first draw whose path differs from the previous pick's, and every earlier draw repeated; no end exactly when every draw repeats |
| Captcha.ResampleNeverSettles | visualcaptcha/Captcha.py:82-86 | when every candidate has the previous pick's path, no sequence of draws ends the loop |
| Captcha.SettledPick | visualcaptcha/Captcha.py:72-88 | the bounded loop picks a non-repeating path whenever one exists (the same pick as the loop as written), and otherwise takes exactly the first draw |
| Captcha.Clamp | visualcaptcha/Captcha.py:53-55 | the option count is `max(n, 2)`: exactly 2 for requests below two, the request itself otherwise |
| Captcha.Tokens | visualcaptcha/Captcha.py:63-66 | one token per entropy block, in order, each decoding to its block |
| Captcha.Stamp | visualcaptcha/Captcha.py:63-68 | each stamped option keeps its template's name and path and carries the matching token |
| Captcha.PickImage | visualcaptcha/Captcha.py:72-79 | the valid image is one of the stored images and avoids the previous path when another path exists; no pick is made only when every supplied draw names a repeating path |
| Captcha.PickAudio | visualcaptcha/Captcha.py:81-88 | the valid audio is a catalog entry and avoids the previous path when another path exists; no pick is made only when every supplied draw names a repeating path |
| Captcha.Draw | visualcaptcha/Captcha.py:60-68 | the challenge's images are `n` catalog templates drawn without replacement, the i-th carrying the i-th token |
| Captcha.Finish | visualcaptcha/Captcha.py:81-98 | a missing audio catalog raises TypeError and an empty one ValueError, with nothing more written, and these are the only sources of those faults; `DrawsExhausted` comes only when every audio draw repeats the previous path; on success the valid audio is a catalog entry that avoids the previous path when another exists, and the frontend data names the valid image |
| Captcha.Deal | visualcaptcha/Captcha.py:70-98 | on success the namespace gains exactly the four challenge keys: the given list, a valid image from it and a valid audio from the catalog (each avoiding the previous path when another exists), and frontend data holding the list's tokens and the valid image's name; a failure adds only challenge keys and never the valid audio; `DrawsExhausted` comes only when every image draw or every audio draw repeats; in both cases the given list is stored |
| Captcha.Generate | visualcaptcha/Captcha.py:40-98 | only the namespace changes, and only challenge keys remain in it; the assets path and audio catalog stay, and the image catalog keeps its multiset; success stores exactly the four challenge keys; a failure leaves no frontend data, no valid audio and no complete challenge, and a missing or too small image catalog leaves the namespace empty; any stored image list is the fresh one, its tokens made from the first `max(n, 2)` entropy blocks |
| Captcha.GenerateFaults | visualcaptcha/Captcha.py:53-88 | a missing image catalog raises TypeError and `max(n, 2)` above its size raises ValueError; conversely TypeError only comes from a missing catalog, ValueError only from an oversized sample or an empty audio catalog, `DrawsExhausted` only when every supplied draw of one retry loop repeats the previous path, and IndexError never |
| Captcha.FirstGenerateReturns | visualcaptcha/Captcha.py:40-98 | the first `generate` on a session succeeds when the image catalog holds at least `max(n, 2)` entries, the audio catalog is non-empty and each retry loop gets a draw |
| Captcha.GenerateChallenge | visualcaptcha/Captcha.py:40-98 | `max(n, 2)` images drawn without replacement; image i has token i; frontend values are those tokens; picks are members; each pick avoids the previous pick's path whenever some candidate has another path |
| Captcha.DefaultGenerateOffersFive | visualcaptcha/Captcha.py:40-61 | `generate()` without a count stores five images |
| Captcha.GetAllImageOptions | visualcaptcha/Captcha.py:191-193 | returns the image catalog as the engine holds it, without touching the session |
| Captcha.GetAllAudioOptions | visualcaptcha/Captcha.py:195-197 | returns the audio catalog as the engine holds it, without touching the session |
| Captcha.CatalogsAfterNew | visualcaptcha/Captcha.py:24-36 | right after construction, the catalog getters return the non-empty default catalogs, or else the JSON files read from the assets path |
| Captcha.GenerateShufflesCatalog | visualcaptcha/Captcha.py:57-58 | afterwards `getAllImageOptions` is a permutation of the catalog before, and the audio catalog is unchanged |
| Captcha.DistinctTokens | visualcaptcha/Captcha.py:63-66 | distinct entropy blocks give pairwise distinct tokens |
| Captcha.OnlyValidPath | visualcaptcha/Captcha.py:57-79 | images drawn from a catalog with distinct paths have distinct paths, so exactly one of them lies on the valid image's path |
| Captcha.GenerateSingleValidPath | visualcaptcha/Captcha.py:40-98 | after `generate` on a catalog with distinct paths, exactly one generated image has the valid image's path |
| Captcha.ExactlyOneImageValidates | visualcaptcha/Captcha.py:164-168 | with distinct tokens, exactly one stored image's token validates: the valid image's |
| Captcha.GenerateSingleCorrectAnswer | visualcaptcha/Captcha.py:63-79 | after `generate`, if the entropy blocks of the image tokens are distinct, exactly one generated image validates |
| Captcha.GenerateThenValidate | visualcaptcha/Captcha.py:164-174 | after `generate`, an answer validates iff it is the valid image's token or the valid audio's catalog value |
| Captcha.ReadsAreStable | visualcaptcha/Captcha.py:152-189 | once the namespace exists, no getter, validator or lookup changes the engine |
| Captcha.ReadTwice | visualcaptcha/Captcha.py:176-178 | repeated `getImageOptions` calls return the same list |
| Captcha.UnchallengedReads | visualcaptcha/Captcha.py:152-185 | before `generate`, every getter returns None, while validation and lookup by index raise TypeError |
| Captcha.NewEngineUnchallenged | visualcaptcha/Captcha.py:14-36 | a new engine over a host without the namespace holds no challenge |
| Captcha.ConsecutiveGeneratesChangePicks | visualcaptcha/Captcha.py:43-88 | a second `generate` changes the valid image's and the valid audio's path unless no other path is available |
| Streaming.StreamFile | visualcaptcha/Captcha.py:214-233 | a file is streamed exactly when it exists |
| Streaming.AudioFilePath | visualcaptcha/Captcha.py:108-117 | any file type but `ogg` streams `assets/audios/<path>`; the ogg rewrite keeps the path's length |
| Streaming.OggTwin | visualcaptcha/Captcha.py:112-114 | when the file's `.mp3` extension is the only one in the path, the ogg path is its `.ogg` twin |
| Streaming.OggPathHasNoMp3 | visualcaptcha/Captcha.py:112-114 | the ogg path contains no `.mp3` in any case, the assets directory included, since the rewrite covers the whole joined path |
| Streaming.StreamAudio | visualcaptcha/Captcha.py:103-121 | False without a stored valid audio or with an empty path; otherwise streams the computed audio path when that file exists |
| Streaming.ImageFileName | visualcaptcha/Captcha.py:141-143 | the retina rewrite leaves a file name empty exactly when it was empty, so the emptiness test of line 147 sees the same answer, and does nothing without retina |
| Streaming.ImageFilePathAsWritten | visualcaptcha/Captcha.py:131-144 | without retina the path is `images/<path>` under the assets path |
| Streaming.ImageFilePath | visualcaptcha/Captcha.py:131-144 | the intended path always keeps the assets directory `assets/images/` as its prefix (only the file name is rewritten), never shortens, and is the plain path without retina |
| Streaming.RetinaTwin | visualcaptcha/Captcha.py:141-143 | a retina request for `stem.png` resolves to `stem@2x.png` |
| Streaming.RetinaPathAsWrittenIsPlain | visualcaptcha/Captcha.py:144 | as written, a path with no `/` directly before a `.` is streamed unchanged for retina |
| Streaming.RetinaPathExample | visualcaptcha/Captcha.py:141-143 | the intended retina path of image `b.png` is `images/b@2x.png` under any assets path |
| Streaming.RetinaPathAsWrittenExample | visualcaptcha/Captcha.py:142-144 | for assets `a` and image `b.png`, the source streams `a/images/b.png` where `a/images/b@2x.png` is meant |
| Streaming.StreamImage | visualcaptcha/Captcha.py:127-150 | TypeError without a stored list; False past the list or for an empty path; otherwise streams the intended image path when the file exists |
| Streaming.DefaultStreamAudioIsMp3 | visualcaptcha/Captcha.py:103-119 | `streamAudio()` without a file type streams the stored audio's path under `audios/` unchanged |
| Streaming.DefaultStreamImageIsPlain | visualcaptcha/Captcha.py:127-148 | `streamImage(index)` without retina streams the stored image's path under `images/` unchanged |
| Streaming.UnchallengedStreamAudio | visualcaptcha/Captcha.py:104-121 | before `generate`, streaming audio yields False |

## Left out

- File and OS I/O are abstracted:
  - `utilReadJSON` is the `imagesJson`/`audiosJson` parameters of `Captcha.New`;
  - `utilStreamFile` stops at the requested path, and file existence is the `isFile` parameter;
  - `getMimeType` and the response headers are not modelled;
  - the directory of `__file__` is the `moduleDir` parameter.
- Randomness is abstracted. `os.urandom`, `random.shuffle` and `random.sample` take their draws from the `Oracle`, so nothing probabilistic is claimed. In particular, the model does not claim that field names or tokens differ between calls. Token distinctness is a hypothesis (distinct entropy blocks).
- `random.sample` is modelled by CPython's pool method. CPython switches to a set-based method for large populations; that method also picks distinct positions, which is all the model states.
- Captcha.Generate: the retry loops draw without bound in the source. Here they scan a finite draw sequence, and running out is the fault `DrawsExhausted`, which `GenerateFaults` confines to the case where every supplied draw of one loop repeats the previous path. The source would keep drawing instead.
- Captcha.Generate: when every candidate has the previous pick's path, the model accepts the repeated path (`Captcha.SettledPick`). The source never returns in that case (third row of "## Findings").
- Streaming.StreamImage: it uses the corrected lookup and the corrected retina path, not lines 128 and 144 as written. At `index == len(images)` the source raises IndexError where the model streams nothing. For retina, the source streams the plain `.png` where the model streams the `@2x.png` twin. `Captcha.ImageOptionAtIndexAsWritten` and `Streaming.ImageFilePathAsWritten` model the code as written.
- Aliasing: `generate` writes `value` onto the shared catalog dicts (visualcaptcha/Captcha.py:68), so stale values stay visible through `getAllImageOptions`. The model stamps copies instead, so its catalog never carries tokens.
- Python's mutable default arguments (`session = {}`, `defaultImages=[]`) are shared between instances. This is not modelled: every adapter and engine gets its host mapping explicitly.
- Python coercions are not modelled:
  - `int(numberOfOptions)` and `int(index)`;
  - negative indices, because indices are naturals;
  - non-string answers to `validateImage`/`validateAudio`.
- Case-insensitive matching is ASCII lower-casing. This is what the byte-string patterns do under Python 2. Python 3.11 and later reject the mid-pattern `(?i)` at line 144.
- The host mapping maps every key to a sub-map. A namespace entry holding `None` or a non-dict value is not modelled.
- A value of the wrong kind under one of the four challenge keys (written there by other code) reads as absent through the typed views.
- `imageOptions[index]` truthiness at line 185 is always true in the model: a stored option is a non-empty dict.

## Findings

| source | as written | input that shows it | evidently intended | confidence | as-written member | corrected member |
|---|---|---|---|---|---|---|
| visualcaptcha/Captcha.py:185 | the guard `len(imageOptions) > (index - 1)` admits `index == len(imageOptions)`, and the indexing then raises IndexError | `generate(5)`, then `getImageOptionAtIndex(5)` or `streamImage(headers, 5)` | an index at the length returns None, like every larger one | not executed; high | Captcha.ImageOptionAtIndexAsWritten | Captcha.ImageOptionAtIndex |
| visualcaptcha/Captcha.py:144 | the retina rewrite of the streamed path matches only `/.png`, so `dir/name.png` is left as is | assets path `a`, image path `b.png`, retina requested: the source streams `a/images/b.png` | stream `a/images/b@2x.png`, the rewritten file name of line 143 | not executed; high | Streaming.ImageFilePathAsWritten | Streaming.ImageFilePath |
| visualcaptcha/Captcha.py:82-86 | the audio retry loop redraws while the draw's path equals the previous valid audio's path | an audio catalog with one entry and two `generate` calls: the second call never returns | accept the repeat when no other path exists | not executed; medium | Captcha.Resample | Captcha.SettledPick |

The proofs for these rows:

- `Captcha.AtIndexAsWrittenDiffersOnlyAtLength` shows the first discrepancy.
- `Streaming.RetinaPathAsWrittenExample` and `Streaming.RetinaPathAsWrittenIsPlain` show the second.
- `Captcha.ResampleNeverSettles` shows the third; the image loop at lines 73-77 has the same shape.

`Captcha.Generate` and `Streaming.StreamImage` use the corrected definitions.

=== FILE: captcha.dfy ===
/**
 * The challenge engine of visualcaptcha/Captcha.py.
 *
 * An Engine is the Captcha object: its session adapter, assets path and the
 * two catalogs. Every operation returns an Outcome carrying the engine as it
 * is afterwards, because even the getters change state (the session adapter
 * creates a missing namespace on every read), and because a Python exception
 * leaves behind whatever the operation had already written. Randomness is an
 * Oracle argument.
 */
module Captcha {
  import opened Wrappers
  import opened SessionStore
  import Hex
  import Randomness

  /* ---- Data model ---- */

  /** A catalog image from images.json: display name and asset path. */
  datatype ImageTemplate = ImageTemplate(name: string, path: string)

  /** An image of one challenge: a copy of a template stamped with a per-challenge token. */
  datatype ImageOption = ImageOption(name: string, path: string, value: string)

  /** An audio from audios.json; its `value` is the spoken answer, fixed by the catalog. */
  datatype AudioOption = AudioOption(path: string, value: string)

  /** What the page needs to render a challenge. */
  datatype FrontendData = FrontendData(
    values: seq<string>,
    imageName: string,
    imageFieldName: string,
    audioFieldName: string)

  /** The values the engine keeps in its session namespace, one kind per key. */
  datatype Value =
    | ImageList(images: seq<ImageOption>)
    | ValidImage(image: ImageOption)
    | ValidAudio(audio: AudioOption)
    | Frontend(data: FrontendData)

  const ImagesKey: string := "images"
  const ValidImageKey: string := "validImageOption"
  const ValidAudioKey: string := "validAudioOption"
  const FrontendKey: string := "frontendData"

  /** The namespace keys a generated challenge consists of. */
  const ChallengeKeys: set<string> := {ImagesKey, ValidImageKey, ValidAudioKey, FrontendKey}

  /** A catalog is None when its JSON file was missing. */
  datatype Engine = Engine(
    session: Session<Value>,
    assetsPath: string,
    imageOptions: Option<seq<ImageTemplate>>,
    audioOptions: Option<seq<AudioOption>>)

  /** The exceptions the source lets escape, plus running out of supplied draws. */
  datatype Fault =
    | TypeError       // indexing or measuring None
    | ValueError      // random.sample asked for more than the population holds
    | IndexError      // list index out of range
    | DrawsExhausted  // a retry loop was still drawing when the supplied draws ran out

  datatype Outcome<T> = Returned(engine: Engine, value: T) | Raised(engine: Engine, fault: Fault)

  /* ---- Construction ---- */

  /**
   * `Captcha.__init__`. An empty assets path falls back to the `assets`
   * directory beside the module; an empty default catalog is read from the
   * assets path, `imagesJson` and `audiosJson` standing for `utilReadJSON`
   * (None when the file does not exist).
   */
  function New(
    session: Session<Value>,
    assetsPath: string,
    defaultImages: seq<ImageTemplate>,
    defaultAudios: seq<AudioOption>,
    moduleDir: string,
    imagesJson: string -> Option<seq<ImageTemplate>>,
    audiosJson: string -> Option<seq<AudioOption>>): (e: Engine)
    ensures e.session == session
    ensures assetsPath != "" ==> e.assetsPath == assetsPath
    ensures assetsPath == "" ==> e.assetsPath == moduleDir + "/assets"
    ensures |defaultImages| > 0 ==> e.imageOptions == Some(defaultImages)
    ensures |defaultImages| == 0 ==> e.imageOptions == imagesJson(e.assetsPath + "/images.json")
    ensures |defaultAudios| > 0 ==> e.audioOptions == Some(defaultAudios)
    ensures |defaultAudios| == 0 ==> e.audioOptions == audiosJson(e.assetsPath + "/audios.json")
  {
    var assets := if assetsPath == "" then moduleDir + "/assets" else assetsPath;
    Engine(
      session,
      assets,
      if |defaultImages| == 0 then imagesJson(assets + "/images.json") else Some(defaultImages),
      if |defaultAudios| == 0 then audiosJson(assets + "/audios.json") else Some(defaultAudios))
  }

  /* ---- Typed views of the namespace ---- */

  function AsImages(v: Option<Value>): Option<seq<ImageOption>> {
    match v
    case Some(ImageList(images)) => Some(images)
    case _ => None
  }

  function AsValidImage(v: Option<Value>): Option<ImageOption> {
    match v
    case Some(ValidImage(image)) => Some(image)
    case _ => None
  }

  function AsValidAudio(v: Option<Value>): Option<AudioOption> {
    match v
    case Some(ValidAudio(audio)) => Some(audio)
    case _ => None
  }

  function AsFrontend(v: Option<Value>): Option<FrontendData> {
    match v
    case Some(Frontend(data)) => Some(data)
    case _ => None
  }

  function StoredImages(e: Engine): Option<seq<ImageOption>> {
    AsImages(Lookup(e.session, ImagesKey))
  }

  function StoredValidImage(e: Engine): Option<ImageOption> {
    AsValidImage(Lookup(e.session, ValidImageKey))
  }

  function StoredValidAudio(e: Engine): Option<AudioOption> {
    AsValidAudio(Lookup(e.session, ValidAudioKey))
  }

  function StoredFrontend(e: Engine): Option<FrontendData> {
    AsFrontend(Lookup(e.session, FrontendKey))
  }

  /** One generated challenge as the namespace holds it. */
  datatype Challenge = Challenge(
    images: seq<ImageOption>,
    validImage: ImageOption,
    validAudio: AudioOption,
    frontend: FrontendData)

  /** The stored challenge, when all four of its parts are present. */
  function StoredChallenge(e: Engine): Option<Challenge> {
    match (StoredImages(e), StoredValidImage(e), StoredValidAudio(e), StoredFrontend(e))
    case (Some(images), Some(image), Some(audio), Some(frontend)) =>
      Some(Challenge(images, image, audio, frontend))
    case _ => None
  }

  /** No part of a challenge is stored: the state before the first `generate`. */
  predicate Unchallenged(e: Engine) {
    forall k :: k in ChallengeKeys ==> k !in Contents(e.session)
  }

  /** `e2` is `e` after a read: at most the namespace was created. */
  predicate OnlyInitialised(e: Engine, e2: Engine) {
    e2 == e.(session := Touch(e.session))
  }

  /* ---- Getters ---- */

  /** `getImageOptions`. */
  function GetImageOptions(e: Engine): (r: Outcome<Option<seq<ImageOption>>>)
    ensures r.Returned? && OnlyInitialised(e, r.engine)
    ensures r.value == StoredImages(e)
  {
    var read := Get(e.session, ImagesKey);
    Returned(e.(session := read.session), AsImages(read.value))
  }

  /** `getValidImageOption`. */
  function GetValidImageOption(e: Engine): (r: Outcome<Option<ImageOption>>)
    ensures r.Returned? && OnlyInitialised(e, r.engine)
    ensures r.value == StoredValidImage(e)
  {
    var read := Get(e.session, ValidImageKey);
    Returned(e.(session := read.session), AsValidImage(read.value))
  }

  /** `getValidAudioOption`. */
  function GetValidAudioOption(e: Engine): (r: Outcome<Option<AudioOption>>)
    ensures r.Returned? && OnlyInitialised(e, r.engine)
    ensures r.value == StoredValidAudio(e)
  {
    var read := Get(e.session, ValidAudioKey);
    Returned(e.(session := read.session), AsValidAudio(read.value))
  }

  /** `getAudioOption`: the only audio a challenge presents is the valid one. */
  function GetAudioOption(e: Engine): (r: Outcome<Option<AudioOption>>)
    ensures r.Returned? && OnlyInitialised(e, r.engine)
    ensures r.value == StoredValidAudio(e)
  {
    GetValidAudioOption(e)
  }

  /** `getFrontendData`. */
  function GetFrontendData(e: Engine): (r: Outcome<Option<FrontendData>>)
    ensures r.Returned? && OnlyInitialised(e, r.engine)
    ensures r.value == StoredFrontend(e)
  {
    var read := Get(e.session, FrontendKey);
    Returned(e.(session := read.session), AsFrontend(read.value))
  }

  /** `getAllImageOptions`: the catalog itself, in its current order; the session is not consulted. */
  function GetAllImageOptions(e: Engine): (r: Outcome<Option<seq<ImageTemplate>>>)
    ensures r.Returned? && r.engine == e
    ensures r.value == e.imageOptions
  {
    Returned(e, e.imageOptions)
  }

  /** `getAllAudioOptions`: the audio catalog; the session is not consulted. */
  function GetAllAudioOptions(e: Engine): (r: Outcome<Option<seq<AudioOption>>>)
    ensures r.Returned? && r.engine == e
    ensures r.value == e.audioOptions
  {
    Returned(e, e.audioOptions)
  }

  /* ---- Validation ---- */

  /** `validateImage`: compares with the stored valid image's token; None raises. */
  function ValidateImage(e: Engine, sent: string): (r: Outcome<bool>)
    ensures OnlyInitialised(e, r.engine)
    ensures r.Raised? <==> StoredValidImage(e).None?
    ensures r.Raised? ==> r.fault == TypeError
    ensures r.Returned? ==> (r.value <==> sent == StoredValidImage(e).value.value)
  {
    var read := GetValidImageOption(e);
    match read.value
    case None => Raised(read.engine, TypeError)
    case Some(image) => Returned(read.engine, sent == image.value)
  }

  /** `validateAudio`: compares with the stored valid audio's catalog value; None raises. */
  function ValidateAudio(e: Engine, sent: string): (r: Outcome<bool>)
    ensures OnlyInitialised(e, r.engine)
    ensures r.Raised? <==> StoredValidAudio(e).None?
    ensures r.Raised? ==> r.fault == TypeError
    ensures r.Returned? ==> (r.value <==> sent == StoredValidAudio(e).value.value)
  {
    var read := GetValidAudioOption(e);
    match read.value
    case None => Raised(read.engine, TypeError)
    case Some(audio) => Returned(read.engine, sent == audio.value)
  }

  /* ---- Lookup by index ---- */

  /**
   * `getImageOptionAtIndex` as written: `len(images) > index - 1` admits
   * `index == len(images)`, whose indexing then raises; with no stored list
   * `len(None)` raises.
   */
  function ImageOptionAtIndexAsWritten(e: Engine, index: nat): (r: Outcome<Option<ImageOption>>)
    ensures OnlyInitialised(e, r.engine)
    ensures StoredImages(e).None? ==> r.Raised? && r.fault == TypeError
    ensures StoredImages(e).Some? && index == |StoredImages(e).value| ==> r.Raised? && r.fault == IndexError
  {
    var read := GetImageOptions(e);
    match read.value
    case None => Raised(read.engine, TypeError)
    case Some(images) =>
      if |images| > index - 1 then
        if index < |images| then Returned(read.engine, Some(images[index]))
        else Raised(read.engine, IndexError)
      else Returned(read.engine, None)
  }

  /** `getImageOptionAtIndex` with the bound the lookup evidently intends: `index < len(images)`. */
  function ImageOptionAtIndex(e: Engine, index: nat): (r: Outcome<Option<ImageOption>>)
    ensures OnlyInitialised(e, r.engine)
    ensures r.Raised? <==> StoredImages(e).None?
    ensures r.Raised? ==> r.fault == TypeError
    ensures r.Returned? ==> (r.value.Some? <==> index < |StoredImages(e).value|)
    ensures r.Returned? && r.value.Some? ==> r.value.value == StoredImages(e).value[index]
  {
    var read := GetImageOptions(e);
    match read.value
    case None => Raised(read.engine, TypeError)
    case Some(images) =>
      if index < |images| then Returned(read.engine, Some(images[index]))
      else Returned(read.engine, None)
  }

  /** The two lookups agree on every index except `len(images)`, where only the source raises. */
  lemma AtIndexAsWrittenDiffersOnlyAtLength(e: Engine, index: nat)
    requires StoredImages(e).Some?
    ensures index != |StoredImages(e).value| ==>
              ImageOptionAtIndexAsWritten(e, index) == ImageOptionAtIndex(e, index)
    ensures index == |StoredImages(e).value| ==>
              ImageOptionAtIndexAsWritten(e, index).Raised? && ImageOptionAtIndex(e, index).Returned?
  {
  }

  /* ---- The retry loops ---- */

  /** The previous pick exists and has path `p`, so the loop condition holds. */
  predicate Repeats(previous: Option<string>, p: string) {
    previous.Some? && previous.value == p
  }

  /** Every path of the pool repeats the previous pick. */
  predicate AllRepeat(paths: seq<string>, previous: Option<string>) {
    forall i :: 0 <= i < |paths| ==> Repeats(previous, paths[i])
  }

  /** Each draw names a slot of the pool. */
  predicate DrawsFit(size: nat, draws: seq<nat>) {
    forall i :: 0 <= i < |draws| ==> draws[i] < size
  }

  /**
   * The retry loop as written: keep drawing a pool slot while its path equals
   * the previous pick's. The result is the position in `draws` of the draw
   * that ends the loop, or None if every supplied draw repeated.
   */
  function Resample(paths: seq<string>, previous: Option<string>, draws: seq<nat>): (r: Option<nat>)
    requires DrawsFit(|paths|, draws)
    ensures r.Some? ==> r.value < |draws| && !Repeats(previous, paths[draws[r.value]])
    ensures r.Some? ==> forall k :: 0 <= k < r.value ==> Repeats(previous, paths[draws[k]])
    ensures r.None? <==> forall k :: 0 <= k < |draws| ==> Repeats(previous, paths[draws[k]])
    decreases |draws|
  {
    if |draws| == 0 then None
    else if !Repeats(previous, paths[draws[0]]) then Some(0)
    else
      match Resample(paths, previous, draws[1..])
      case None => None
      case Some(k) => Some(k + 1)
  }

  /** When every path of the pool repeats the previous pick, the loop as written never ends. */
  lemma ResampleNeverSettles(paths: seq<string>, previous: Option<string>, draws: seq<nat>)
    requires DrawsFit(|paths|, draws)
    requires AllRepeat(paths, previous)
    ensures Resample(paths, previous, draws) == None
  {
  }

  /**
   * The retry loop bounded as intended: when no slot of the pool could end
   * the loop, the first draw is accepted even though it repeats.
   */
  function SettledPick(paths: seq<string>, previous: Option<string>, draws: seq<nat>): (r: Option<nat>)
    requires DrawsFit(|paths|, draws)
    ensures r.Some? ==> r.value < |draws|
    ensures r.Some? && !AllRepeat(paths, previous) ==> !Repeats(previous, paths[draws[r.value]])
    ensures AllRepeat(paths, previous) ==> (r.Some? <==> |draws| > 0)
    ensures AllRepeat(paths, previous) && |draws| > 0 ==> r == Some(0)
    ensures r.None? ==> forall k :: 0 <= k < |draws| ==> Repeats(previous, paths[draws[k]])
    ensures !AllRepeat(paths, previous) ==> r == Resample(paths, previous, draws)
  {
    if AllRepeat(paths, previous) then (if |draws| == 0 then None else Some(0))
    else Resample(paths, previous, draws)
  }

  /* ---- Generation ---- */

  /** `numberOfOptions` raised to at least two. */
  function Clamp(n: int): (r: nat)
    ensures r >= 2 && r >= n
    ensures r == 2 || r == n
    ensures n >= 2 ==> r == n
  {
    if n < 2 then 2 else n
  }

  /**
   * The random choices one `generate` call consumes: the shuffle's and the
   * sample's draws, ten bytes of entropy for each image token and the two
   * field-name tokens, and the draws of the two retry loops.
   */
  datatype Oracle = Oracle(
    shuffleDraws: seq<nat>,
    sampleDraws: seq<nat>,
    entropy: seq<seq<Hex.Byte>>,
    imageDraws: seq<nat>,
    audioDraws: seq<nat>)

  predicate OracleFits(e: Engine, numberOfOptions: int, o: Oracle) {
    var n := Clamp(numberOfOptions);
    && (e.imageOptions.Some? ==>
          && Randomness.ShuffleDrawsFit(|e.imageOptions.value|, o.shuffleDraws)
          && (n <= |e.imageOptions.value| ==>
                Randomness.SampleDrawsFit(|e.imageOptions.value|, n, o.sampleDraws)))
    && |o.entropy| == n + 2
    && (forall i :: 0 <= i < |o.entropy| ==> |o.entropy[i]| == Hex.TokenBytes)
    && DrawsFit(n, o.imageDraws)
    && (e.audioOptions.Some? ==> DrawsFit(|e.audioOptions.value|, o.audioDraws))
  }

  /** The tokens `utilRandomHex(10)` returns for the given entropy blocks, in order. */
  function Tokens(entropy: seq<seq<Hex.Byte>>): (r: seq<string>)
    requires forall i :: 0 <= i < |entropy| ==> |entropy[i]| == Hex.TokenBytes
    ensures |r| == |entropy|
    ensures forall i :: 0 <= i < |r| ==> Hex.Decode(r[i]) == Some(entropy[i])
  {
    seq(|entropy|, i requires 0 <= i < |entropy| => Hex.RandomHex(Hex.TokenBytes, entropy[i]))
  }

  function Templates(images: seq<ImageOption>): (r: seq<ImageTemplate>)
    ensures |r| == |images|
  {
    seq(|images|, i requires 0 <= i < |images| => ImageTemplate(images[i].name, images[i].path))
  }

  function Values(images: seq<ImageOption>): (r: seq<string>)
    ensures |r| == |images|
  {
    seq(|images|, i requires 0 <= i < |images| => images[i].value)
  }

  function ImagePaths(images: seq<ImageOption>): (r: seq<string>)
    ensures |r| == |images|
  {
    seq(|images|, i requires 0 <= i < |images| => images[i].path)
  }

  function AudioPaths(audios: seq<AudioOption>): (r: seq<string>)
    ensures |r| == |audios|
  {
    seq(|audios|, i requires 0 <= i < |audios| => audios[i].path)
  }

  /** Copies each template into a fresh option carrying the matching token. */
  function Stamp(templates: seq<ImageTemplate>, tokens: seq<string>): (r: seq<ImageOption>)
    requires |templates| == |tokens|
    ensures Templates(r) == templates
    ensures Values(r) == tokens
  {
    seq(|templates|, i requires 0 <= i < |templates| =>
      ImageOption(templates[i].name, templates[i].path, tokens[i]))
  }

  function ImagePathOf(o: Option<ImageOption>): Option<string> {
    match o
    case Some(image) => Some(image.path)
    case None => None
  }

  function AudioPathOf(o: Option<AudioOption>): Option<string> {
    match o
    case Some(audio) => Some(audio.path)
    case None => None
  }

  /** The valid image: the retry loop's pick from the stored list. */
  function PickImage(images: seq<ImageOption>, previous: Option<string>, draws: seq<nat>): (r: Option<ImageOption>)
    requires DrawsFit(|images|, draws)
    ensures r.Some? ==> r.value in images
    ensures r.Some? && !AllRepeat(ImagePaths(images), previous) ==> !Repeats(previous, r.value.path)
    ensures AllRepeat(ImagePaths(images), previous) ==> (r.Some? <==> |draws| > 0)
    ensures r.None? ==> forall k :: 0 <= k < |draws| ==> Repeats(previous, images[draws[k]].path)
  {
    match SettledPick(ImagePaths(images), previous, draws)
    case None => None
    case Some(k) => Some(images[draws[k]])
  }

  /** The valid audio: the retry loop's pick from the audio catalog. */
  function PickAudio(audios: seq<AudioOption>, previous: Option<string>, draws: seq<nat>): (r: Option<AudioOption>)
    requires DrawsFit(|audios|, draws)
    ensures r.Some? ==> r.value in audios
    ensures r.Some? && !AllRepeat(AudioPaths(audios), previous) ==> !Repeats(previous, r.value.path)
    ensures AllRepeat(AudioPaths(audios), previous) ==> (r.Some? <==> |draws| > 0)
    ensures r.None? ==> forall k :: 0 <= k < |draws| ==> Repeats(previous, audios[draws[k]].path)
  {
    match SettledPick(AudioPaths(audios), previous, draws)
    case None => None
    case Some(k) => Some(audios[draws[k]])
  }

  /**
   * Lines 57-68 of `generate` after the shuffle: sample `n` templates and
   * stamp the i-th with the i-th token.
   */
  function Draw(shuffled: seq<ImageTemplate>, n: nat, o: Oracle): (r: seq<ImageOption>)
    requires Randomness.SampleDrawsFit(|shuffled|, n, o.sampleDraws)
    requires n <= |o.entropy|
    requires forall i :: 0 <= i < |o.entropy| ==> |o.entropy[i]| == Hex.TokenBytes
    ensures |r| == n
    ensures Values(r) == Tokens(o.entropy)[..n]
    ensures multiset(Templates(r)) <= multiset(shuffled)
  {
    Stamp(Randomness.Sample(shuffled, n, o.sampleDraws), Tokens(o.entropy)[..n])
  }

  /** `session.set(key, v)` on the engine's adapter. */
  function Store(e: Engine, key: string, v: Value): (r: Engine)
    ensures r == e.(session := r.session)
    ensures Framed(e.session, r.session)
    ensures Contents(r.session) == Contents(e.session)[key := v]
  {
    e.(session := Set(e.session, key, v))
  }

  /**
   * Lines 81-98 of `generate`, once the list and the valid image are stored:
   * pick and store the valid audio, then store the frontend data. A missing
   * audio catalog raises TypeError and an empty one ValueError, both before
   * anything more is written.
   */
  function Finish(
    e: Engine,
    images: seq<ImageOption>,
    image: ImageOption,
    previousAudio: Option<string>,
    audioDraws: seq<nat>,
    imageFieldName: string,
    audioFieldName: string): (r: Outcome<()>)
    requires e.audioOptions.Some? ==> DrawsFit(|e.audioOptions.value|, audioDraws)
    requires Contents(e.session) == map[ImagesKey := ImageList(images), ValidImageKey := ValidImage(image)]
    ensures r.engine == e.(session := r.engine.session)
    ensures Framed(e.session, r.engine.session)
    ensures r.Raised? ==> r.engine == e
    ensures e.audioOptions.None? ==> r == Raised(e, TypeError)
    ensures e.audioOptions == Some([]) ==> r == Raised(e, ValueError)
    ensures r.Raised? && r.fault == TypeError ==> e.audioOptions.None?
    ensures r.Raised? && r.fault == ValueError ==> e.audioOptions == Some([])
    ensures r.Raised? && r.fault == DrawsExhausted ==>
              e.audioOptions.Some? &&
              forall k :: 0 <= k < |audioDraws| ==> Repeats(previousAudio, e.audioOptions.value[audioDraws[k]].path)
    ensures r.Raised? ==> r.fault != IndexError
    ensures r.Returned? ==> Contents(r.engine.session).Keys == ChallengeKeys
    ensures r.Returned? ==> StoredChallenge(r.engine).Some?
    ensures r.Returned? ==>
              var ch := StoredChallenge(r.engine).value;
              && ch.images == images
              && ch.validImage == image
              && e.audioOptions.Some? && ch.validAudio in e.audioOptions.value
              && (!AllRepeat(AudioPaths(e.audioOptions.value), previousAudio) ==> !Repeats(previousAudio, ch.validAudio.path))
              && ch.frontend == FrontendData(Values(images), image.name, imageFieldName, audioFieldName)
  {
    match e.audioOptions
    case None => Raised(e, TypeError)
    case Some(audios) =>
      if |audios| == 0 then Raised(e, ValueError)
      else
        match PickAudio(audios, previousAudio, audioDraws)
        case None => Raised(e, DrawsExhausted)
        case Some(audio) =>
          var audioed := Store(e, ValidAudioKey, ValidAudio(audio));
          var frontend := FrontendData(Values(images), image.name, imageFieldName, audioFieldName);
          Returned(Store(audioed, FrontendKey, Frontend(frontend)), ())
  }

  /**
   * The second half of `generate`, once the stamped list is ready: store it,
   * pick and store the valid image, and hand over to Finish.
   */
  function Deal(
    e: Engine,
    images: seq<ImageOption>,
    previousImage: Option<string>,
    previousAudio: Option<string>,
    imageDraws: seq<nat>,
    audioDraws: seq<nat>,
    imageFieldName: string,
    audioFieldName: string): (r: Outcome<()>)
    requires DrawsFit(|images|, imageDraws)
    requires e.audioOptions.Some? ==> DrawsFit(|e.audioOptions.value|, audioDraws)
    requires Contents(e.session) == map[]
    ensures r.engine == e.(session := r.engine.session)
    ensures Framed(e.session, r.engine.session)
    ensures r.Returned? ==> Contents(r.engine.session).Keys == ChallengeKeys
    ensures r.Raised? ==> Contents(r.engine.session).Keys <= ChallengeKeys
    ensures r.Raised? ==> FrontendKey !in Contents(r.engine.session)
    ensures r.Raised? ==> ValidAudioKey !in Contents(r.engine.session)
    ensures StoredImages(r.engine) == Some(images)
    ensures r.Raised? && r.fault == TypeError ==> e.audioOptions.None?
    ensures r.Raised? && r.fault == ValueError ==> e.audioOptions == Some([])
    ensures r.Raised? && r.fault == DrawsExhausted ==>
              (forall k :: 0 <= k < |imageDraws| ==> Repeats(previousImage, images[imageDraws[k]].path)) ||
              (e.audioOptions.Some? &&
               forall k :: 0 <= k < |audioDraws| ==> Repeats(previousAudio, e.audioOptions.value[audioDraws[k]].path))
    ensures r.Raised? ==> r.fault != IndexError
    ensures r.Returned? ==> StoredChallenge(r.engine).Some?
    ensures r.Returned? ==>
              var ch := StoredChallenge(r.engine).value;
              && ch.images == images
              && ch.validImage in images
              && e.audioOptions.Some? && ch.validAudio in e.audioOptions.value
              && (!AllRepeat(ImagePaths(images), previousImage) ==> !Repeats(previousImage, ch.validImage.path))
              && (!AllRepeat(AudioPaths(e.audioOptions.value), previousAudio) ==> !Repeats(previousAudio, ch.validAudio.path))
              && ch.frontend == FrontendData(Values(images), ch.validImage.name, imageFieldName, audioFieldName)
  {
    var listed := Store(e, ImagesKey, ImageList(images));
    match PickImage(images, previousImage, imageDraws)
    case None => Raised(listed, DrawsExhausted)
    case Some(image) =>
      var imaged := Store(listed, ValidImageKey, ValidImage(image));
      assert Contents(imaged.session) == map[ImagesKey := ImageList(images), ValidImageKey := ValidImage(image)];
      var r := Finish(imaged, images, image, previousAudio, audioDraws, imageFieldName, audioFieldName);
      FramedTransitive(e.session, listed.session, imaged.session);
      FramedTransitive(e.session, imaged.session, r.engine.session);
      r
  }

  /**
   * `generate(numberOfOptions)`. It reads the previous valid picks, clears the
   * namespace, shuffles the catalog in place, samples `max(n, 2)` templates,
   * stamps them with fresh tokens, and hands over to Deal.
   */
  function Generate(e: Engine, numberOfOptions: int := 5, o: Oracle): (r: Outcome<()>)
    requires OracleFits(e, numberOfOptions, o)
    ensures Framed(e.session, r.engine.session)
    ensures r.engine.assetsPath == e.assetsPath && r.engine.audioOptions == e.audioOptions
    ensures r.engine.imageOptions.Some? <==> e.imageOptions.Some?
    ensures e.imageOptions.Some? ==>
              multiset(r.engine.imageOptions.value) == multiset(e.imageOptions.value)
    ensures Contents(r.engine.session).Keys <= ChallengeKeys
    ensures r.Returned? ==> Contents(r.engine.session).Keys == ChallengeKeys
    ensures r.Returned? ==> StoredChallenge(r.engine).Some?
    ensures r.Raised? ==> StoredChallenge(r.engine).None? && FrontendKey !in Contents(r.engine.session)
    ensures r.Raised? ==> ValidAudioKey !in Contents(r.engine.session)
    ensures r.Raised? && (e.imageOptions.None? || Clamp(numberOfOptions) > |e.imageOptions.value|) ==>
              Contents(r.engine.session) == map[]
    ensures StoredImages(r.engine).Some? ==>
              Values(StoredImages(r.engine).value) == Tokens(o.entropy)[..Clamp(numberOfOptions)]
  {
    var oldImage := GetValidImageOption(e);
    var oldAudio := GetValidAudioOption(oldImage.engine);
    var cleared := oldAudio.engine.(session := Clear(oldAudio.engine.session));
    var n := Clamp(numberOfOptions);
    if cleared.imageOptions.None? then Raised(cleared, TypeError)
    else
      var shuffled := Randomness.Shuffle(cleared.imageOptions.value, o.shuffleDraws);
      var reordered := cleared.(imageOptions := Some(shuffled));
      if n > |shuffled| then Raised(reordered, ValueError)
      else
        var tokens := Tokens(o.entropy);
        var r := Deal(reordered, Draw(shuffled, n, o), ImagePathOf(oldImage.value), AudioPathOf(oldAudio.value),
                      o.imageDraws, o.audioDraws, tokens[n], tokens[n + 1]);
        NoFrontendNoChallenge(r.engine);
        r
  }

  /** Without frontend data in the namespace there is no complete challenge. */
  lemma NoFrontendNoChallenge(e: Engine)
    ensures FrontendKey !in Contents(e.session) ==> StoredChallenge(e).None?
  {
  }

  /** A list of images is stored and every draw names a slot of it on the previous path. */
  predicate EveryImageDrawRepeats(e: Engine, previous: Option<string>, draws: seq<nat>) {
    && StoredImages(e).Some?
    && forall k :: 0 <= k < |draws| ==>
         draws[k] < |StoredImages(e).value| && Repeats(previous, StoredImages(e).value[draws[k]].path)
  }

  /**
   * How `generate` fails: TypeError for a missing catalog, ValueError when the
   * sample is larger than the image catalog or the audio catalog is empty, and
   * DrawsExhausted only when every supplied draw of one retry loop repeats.
   */
  lemma GenerateFaults(e: Engine, numberOfOptions: int, o: Oracle)
    requires OracleFits(e, numberOfOptions, o)
    ensures var r := Generate(e, numberOfOptions, o);
      && (e.imageOptions.None? ==> r.Raised? && r.fault == TypeError)
      && (e.imageOptions.Some? && Clamp(numberOfOptions) > |e.imageOptions.value| ==>
            r.Raised? && r.fault == ValueError)
      && (r.Raised? && r.fault == TypeError ==> e.imageOptions.None? || e.audioOptions.None?)
      && (r.Raised? && r.fault == ValueError ==>
            (e.imageOptions.Some? && Clamp(numberOfOptions) > |e.imageOptions.value|) ||
            e.audioOptions == Some([]))
      && (r.Raised? ==> r.fault != IndexError)
      && (r.Raised? && r.fault == DrawsExhausted ==>
            || EveryImageDrawRepeats(r.engine, ImagePathOf(StoredValidImage(e)), o.imageDraws)
            || (e.audioOptions.Some? &&
                forall k :: 0 <= k < |o.audioDraws| ==>
                  Repeats(AudioPathOf(StoredValidAudio(e)), e.audioOptions.value[o.audioDraws[k]].path)))
  {
  }

  /**
   * The first `generate` on a session succeeds whenever the catalogs are large
   * enough and each retry loop is given a draw: with no previous pick nothing
   * repeats.
   */
  lemma FirstGenerateReturns(e: Engine, numberOfOptions: int, o: Oracle)
    requires OracleFits(e, numberOfOptions, o)
    requires e.imageOptions.Some? && Clamp(numberOfOptions) <= |e.imageOptions.value|
    requires e.audioOptions.Some? && |e.audioOptions.value| > 0
    requires |o.imageDraws| > 0 && |o.audioDraws| > 0
    requires StoredValidImage(e).None? && StoredValidAudio(e).None?
    ensures Generate(e, numberOfOptions, o).Returned?
  {
    GenerateFaults(e, numberOfOptions, o);
  }

  /**
   * The challenge a successful `generate` stores: `max(n, 2)` images drawn
   * without replacement from the catalog, image i carrying the i-th token, the
   * frontend values being those tokens in order, the valid image one of the
   * images and named in the frontend data, the valid audio one of the audio
   * catalog, and neither pick repeating the previous pick's path unless every
   * candidate does.
   */
  lemma GenerateChallenge(e: Engine, numberOfOptions: int, o: Oracle)
    requires OracleFits(e, numberOfOptions, o)
    requires Generate(e, numberOfOptions, o).Returned?
    ensures var r := Generate(e, numberOfOptions, o);
      var ch := StoredChallenge(r.engine).value;
      var n := Clamp(numberOfOptions);
      var tokens := Tokens(o.entropy);
      && e.imageOptions.Some? && e.audioOptions.Some?
      && |ch.images| == n
      && Values(ch.images) == tokens[..n]
      && multiset(Templates(ch.images)) <= multiset(e.imageOptions.value)
      && ch.frontend == FrontendData(Values(ch.images), ch.validImage.name, tokens[n], tokens[n + 1])
      && ch.validImage in ch.images
      && ch.validAudio in e.audioOptions.value
      && (!AllRepeat(ImagePaths(ch.images), ImagePathOf(StoredValidImage(e))) ==>
            !Repeats(ImagePathOf(StoredValidImage(e)), ch.validImage.path))
      && (!AllRepeat(AudioPaths(e.audioOptions.value), AudioPathOf(StoredValidAudio(e))) ==>
            !Repeats(AudioPathOf(StoredValidAudio(e)), ch.validAudio.path))
  {
  }

  /* ---- Properties of the generated state ---- */

  predicate Distinct<T(==)>(s: seq<T>) {
    forall i, j :: 0 <= i < j < |s| ==> s[i] != s[j]
  }

  /** Distinct entropy blocks give distinct tokens. */
  lemma DistinctTokens(entropy: seq<seq<Hex.Byte>>)
    requires forall i :: 0 <= i < |entropy| ==> |entropy[i]| == Hex.TokenBytes
    requires Distinct(entropy)
    ensures Distinct(Tokens(entropy))
  {
    var tokens := Tokens(entropy);
    forall i, j | 0 <= i < j < |tokens|
      ensures tokens[i] != tokens[j]
    {
      assert Hex.Decode(tokens[i]) == Some(entropy[i]);
      assert Hex.Decode(tokens[j]) == Some(entropy[j]);
    }
  }

  /** The first `n` tokens are the tokens of the first `n` entropy blocks. */
  lemma TokensPrefix(entropy: seq<seq<Hex.Byte>>, n: nat)
    requires n <= |entropy|
    requires forall i :: 0 <= i < |entropy| ==> |entropy[i]| == Hex.TokenBytes
    ensures Tokens(entropy)[..n] == Tokens(entropy[..n])
  {
  }

  /**
   * In a stored challenge whose valid image is one of its images and whose
   * tokens are pairwise distinct, exactly one image's token validates, and
   * validating leaves the engine as it was.
   */
  lemma ExactlyOneImageValidates(e: Engine)
    requires StoredChallenge(e).Some?
    requires StoredChallenge(e).value.validImage in StoredChallenge(e).value.images
    requires Distinct(Values(StoredChallenge(e).value.images))
    ensures var images := StoredChallenge(e).value.images;
      exists k :: 0 <= k < |images| && images[k] == StoredChallenge(e).value.validImage &&
        forall i :: 0 <= i < |images| ==> ValidateImage(e, images[i].value) == Returned(e, i == k)
  {
    var ch := StoredChallenge(e).value;
    var k :| 0 <= k < |ch.images| && ch.images[k] == ch.validImage;
    assert Initialised(e.session);
    forall i | 0 <= i < |ch.images|
      ensures ValidateImage(e, ch.images[i].value) == Returned(e, i == k)
    {
      assert Values(ch.images)[i] == ch.images[i].value;
      assert Values(ch.images)[k] == ch.images[k].value;
    }
    assert ch.images[k] == ch.validImage;
  }

  /** After `generate` with distinct entropy blocks, exactly one of the generated images validates. */
  lemma GenerateSingleCorrectAnswer(e: Engine, numberOfOptions: int, o: Oracle)
    requires OracleFits(e, numberOfOptions, o)
    requires Generate(e, numberOfOptions, o).Returned?
    requires Distinct(o.entropy[..Clamp(numberOfOptions)])
    ensures var e2 := Generate(e, numberOfOptions, o).engine;
      var images := StoredChallenge(e2).value.images;
      exists k :: 0 <= k < |images| && images[k] == StoredChallenge(e2).value.validImage &&
        forall i :: 0 <= i < |images| ==> ValidateImage(e2, images[i].value) == Returned(e2, i == k)
  {
    var e2 := Generate(e, numberOfOptions, o).engine;
    GenerateChallenge(e, numberOfOptions, o);
    StampedWithDistinctEntropy(e2, o.entropy, Clamp(numberOfOptions));
    ExactlyOneImageValidates(e2);
  }

  /** A stored list stamped with the tokens of distinct entropy blocks carries pairwise distinct tokens. */
  lemma StampedWithDistinctEntropy(e: Engine, entropy: seq<seq<Hex.Byte>>, n: nat)
    requires n <= |entropy|
    requires forall i :: 0 <= i < |entropy| ==> |entropy[i]| == Hex.TokenBytes
    requires Distinct(entropy[..n])
    requires StoredChallenge(e).Some?
    requires Values(StoredChallenge(e).value.images) == Tokens(entropy)[..n]
    ensures Distinct(Values(StoredChallenge(e).value.images))
  {
    DistinctTokens(entropy[..n]);
    TokensPrefix(entropy, n);
  }

  /** No two catalog entries share a path. */
  predicate DistinctPaths(catalog: seq<ImageTemplate>) {
    forall i, j :: 0 <= i < j < |catalog| ==> catalog[i].path != catalog[j].path
  }

  /** In a catalog with distinct paths every entry occurs at most once. */
  lemma {:induction false} AtMostOnce(catalog: seq<ImageTemplate>, x: ImageTemplate)
    requires DistinctPaths(catalog)
    ensures multiset(catalog)[x] <= 1
    decreases |catalog|
  {
    if |catalog| > 0 {
      var init := catalog[..|catalog| - 1];
      assert catalog == init + [catalog[|catalog| - 1]];
      AtMostOnce(init, x);
      if x == catalog[|catalog| - 1] {
        assert x !in init;
      }
    }
  }

  /** Two entries of a catalog with distinct paths that share a path are the same entry. */
  lemma SamePathSameEntry(catalog: seq<ImageTemplate>, x: ImageTemplate, y: ImageTemplate)
    requires DistinctPaths(catalog)
    requires x in catalog && y in catalog && x.path == y.path
    ensures x == y
  {
    var p :| 0 <= p < |catalog| && catalog[p] == x;
    var q :| 0 <= q < |catalog| && catalog[q] == y;
  }

  /** Drawing without replacement from a catalog with distinct paths gives distinct paths. */
  lemma SubMultisetDistinctPaths(drawn: seq<ImageTemplate>, catalog: seq<ImageTemplate>)
    requires multiset(drawn) <= multiset(catalog)
    requires DistinctPaths(catalog)
    ensures DistinctPaths(drawn)
  {
    forall i, j | 0 <= i < j < |drawn|
      ensures drawn[i].path != drawn[j].path
    {
      if drawn[i].path == drawn[j].path {
        assert drawn[i] in multiset(drawn) && drawn[j] in multiset(drawn);
        SamePathSameEntry(catalog, drawn[i], drawn[j]);
        assert drawn == drawn[..j] + [drawn[j]] + drawn[j + 1..];
        assert drawn[i] in drawn[..j];
        assert multiset(drawn)[drawn[j]] >= 2;
        AtMostOnce(catalog, drawn[j]);
        assert false;
      }
    }
  }

  /**
   * A challenge whose images were drawn from a catalog with distinct paths has
   * exactly one image on the valid image's path: the valid image itself.
   */
  lemma OnlyValidPath(ch: Challenge, catalog: seq<ImageTemplate>)
    requires multiset(Templates(ch.images)) <= multiset(catalog)
    requires DistinctPaths(catalog)
    requires ch.validImage in ch.images
    ensures Distinct(ImagePaths(ch.images))
    ensures exists k :: 0 <= k < |ch.images| && ch.images[k] == ch.validImage &&
              forall i :: 0 <= i < |ch.images| ==> (ch.images[i].path == ch.validImage.path <==> i == k)
  {
    var drawn := Templates(ch.images);
    SubMultisetDistinctPaths(drawn, catalog);
    forall i, j | 0 <= i < j < |ch.images|
      ensures ImagePaths(ch.images)[i] != ImagePaths(ch.images)[j]
    {
      assert drawn[i].path != drawn[j].path;
    }
    var k :| 0 <= k < |ch.images| && ch.images[k] == ch.validImage;
    forall i | 0 <= i < |ch.images|
      ensures ch.images[i].path == ch.validImage.path <==> i == k
    {
      if i != k {
        assert drawn[i].path != drawn[k].path;
      }
    }
  }

  /**
   * After `generate` on a catalog whose paths are pairwise distinct, the valid
   * image's path names exactly one of the generated images.
   */
  lemma GenerateSingleValidPath(e: Engine, numberOfOptions: int, o: Oracle)
    requires OracleFits(e, numberOfOptions, o)
    requires Generate(e, numberOfOptions, o).Returned?
    requires e.imageOptions.Some? && DistinctPaths(e.imageOptions.value)
    ensures var ch := StoredChallenge(Generate(e, numberOfOptions, o).engine).value;
      && Distinct(ImagePaths(ch.images))
      && exists k :: 0 <= k < |ch.images| && ch.images[k] == ch.validImage &&
           forall i :: 0 <= i < |ch.images| ==> (ch.images[i].path == ch.validImage.path <==> i == k)
  {
    GenerateChallenge(e, numberOfOptions, o);
    OnlyValidPath(StoredChallenge(Generate(e, numberOfOptions, o).engine).value, e.imageOptions.value);
  }

  /**
   * After `generate`, validation compares with the stored picks: an image
   * answer is right exactly when it is the valid image's token, an audio answer
   * exactly when it is the valid audio's catalog value.
   */
  lemma GenerateThenValidate(e: Engine, numberOfOptions: int, o: Oracle, sent: string)
    requires OracleFits(e, numberOfOptions, o)
    requires Generate(e, numberOfOptions, o).Returned?
    ensures var e2 := Generate(e, numberOfOptions, o).engine;
      var ch := StoredChallenge(e2).value;
      && ValidateImage(e2, sent) == Returned(e2, sent == ch.validImage.value)
      && ValidateAudio(e2, sent) == Returned(e2, sent == ch.validAudio.value)
      && ch.validAudio in e.audioOptions.value
  {
    GenerateChallenge(e, numberOfOptions, o);
    assert Initialised(Generate(e, numberOfOptions, o).engine.session);
  }

  /** Once the namespace exists, every getter is a pure read: repeated calls agree and change nothing. */
  lemma ReadsAreStable(e: Engine, index: nat, sent: string)
    requires Initialised(e.session)
    ensures GetImageOptions(e).engine == e
    ensures GetImageOptions(GetImageOptions(e).engine) == GetImageOptions(e)
    ensures GetValidImageOption(e).engine == e && GetValidAudioOption(e).engine == e
    ensures GetAudioOption(e) == GetValidAudioOption(e)
    ensures GetFrontendData(e).engine == e
    ensures ValidateImage(e, sent).engine == e && ValidateAudio(e, sent).engine == e
    ensures ImageOptionAtIndex(e, index).engine == e
  {
  }

  /** A read of any engine returns what a read of the initialised engine returns. */
  lemma ReadTwice(e: Engine)
    ensures var first := GetImageOptions(e);
      GetImageOptions(first.engine) == first && GetImageOptions(GetImageOptions(first.engine).engine) == first
  {
  }

  /**
   * Before any `generate`: every getter returns None, validation raises
   * TypeError (the source indexes None), and so does the lookup by index.
   */
  lemma UnchallengedReads(e: Engine, index: nat, sent: string)
    requires Unchallenged(e)
    ensures GetImageOptions(e).value == None && GetValidImageOption(e).value == None
    ensures GetValidAudioOption(e).value == None && GetAudioOption(e).value == None
    ensures GetFrontendData(e).value == None
    ensures ValidateImage(e, sent).Raised? && ValidateImage(e, sent).fault == TypeError
    ensures ValidateAudio(e, sent).Raised? && ValidateAudio(e, sent).fault == TypeError
    ensures ImageOptionAtIndex(e, index).Raised? && ImageOptionAtIndex(e, index).fault == TypeError
  {
  }

  /** A new engine over a host without the namespace has no challenge, and neither has one after a read. */
  lemma NewEngineUnchallenged(
    session: Session<Value>,
    assetsPath: string,
    defaultImages: seq<ImageTemplate>,
    defaultAudios: seq<AudioOption>,
    moduleDir: string,
    imagesJson: string -> Option<seq<ImageTemplate>>,
    audiosJson: string -> Option<seq<AudioOption>>)
    requires !Initialised(session)
    ensures var e := New(session, assetsPath, defaultImages, defaultAudios, moduleDir, imagesJson, audiosJson);
      Unchallenged(e) && Unchallenged(GetValidImageOption(e).engine)
  {
  }

  /**
   * Two `generate` calls in a row: the second valid image and audio differ in
   * path from the first's, unless every candidate of the second call shares
   * that path.
   */
  lemma ConsecutiveGeneratesChangePicks(e: Engine, n1: int, o1: Oracle, n2: int, o2: Oracle)
    requires OracleFits(e, n1, o1)
    requires Generate(e, n1, o1).Returned?
    requires OracleFits(Generate(e, n1, o1).engine, n2, o2)
    requires Generate(Generate(e, n1, o1).engine, n2, o2).Returned?
    ensures var e1 := Generate(e, n1, o1).engine;
      var e2 := Generate(e1, n2, o2).engine;
      var first := StoredChallenge(e1).value;
      var second := StoredChallenge(e2).value;
      && (!AllRepeat(ImagePaths(second.images), Some(first.validImage.path)) ==>
            second.validImage.path != first.validImage.path)
      && (!AllRepeat(AudioPaths(e1.audioOptions.value), Some(first.validAudio.path)) ==>
            second.validAudio.path != first.validAudio.path)
  {
    var e1 := Generate(e, n1, o1).engine;
    GenerateChallenge(e1, n2, o2);
  }

  /**
   * `generate` reorders the image catalog in place (a permutation of the same
   * templates, whether or not it then fails) and never touches the audio catalog.
   */
  lemma GenerateShufflesCatalog(e: Engine, numberOfOptions: int, o: Oracle)
    requires OracleFits(e, numberOfOptions, o)
    requires e.imageOptions.Some?
    ensures var e2 := Generate(e, numberOfOptions, o).engine;
      && GetAllImageOptions(e2).value.Some?
      && |GetAllImageOptions(e2).value.value| == |GetAllImageOptions(e).value.value|
      && multiset(GetAllImageOptions(e2).value.value) == multiset(GetAllImageOptions(e).value.value)
      && GetAllAudioOptions(e2).value == GetAllAudioOptions(e).value
  {
    var e2 := Generate(e, numberOfOptions, o).engine;
    assert |e2.imageOptions.value| == |multiset(e2.imageOptions.value)|;
  }

  /** The catalogs `getAllImageOptions` and `getAllAudioOptions` return right after construction. */
  lemma CatalogsAfterNew(
    session: Session<Value>,
    assetsPath: string,
    defaultImages: seq<ImageTemplate>,
    defaultAudios: seq<AudioOption>,
    moduleDir: string,
    imagesJson: string -> Option<seq<ImageTemplate>>,
    audiosJson: string -> Option<seq<AudioOption>>)
    ensures var e := New(session, assetsPath, defaultImages, defaultAudios, moduleDir, imagesJson, audiosJson);
      && GetAllImageOptions(e).engine == e && GetAllAudioOptions(e).engine == e
      && (|defaultImages| > 0 ==> GetAllImageOptions(e).value == Some(defaultImages))
      && (|defaultImages| == 0 ==> GetAllImageOptions(e).value == imagesJson(e.assetsPath + "/images.json"))
      && (|defaultAudios| > 0 ==> GetAllAudioOptions(e).value == Some(defaultAudios))
      && (|defaultAudios| == 0 ==> GetAllAudioOptions(e).value == audiosJson(e.assetsPath + "/audios.json"))
  {
  }

  /** `generate()` without a count offers five images. */
  lemma DefaultGenerateOffersFive(e: Engine, o: Oracle)
    requires OracleFits(e, 5, o)
    requires Generate(e, o := o).Returned?
    ensures |StoredChallenge(Generate(e, o := o).engine).value.images| == 5
  {
    GenerateChallenge(e, 5, o);
  }
}

=== FILE: hex.dfy ===
/**
 * `utilRandomHex(count)`: `count` bytes of operating-system entropy rendered as
 * lower-case hexadecimal, two digits per byte. The entropy itself is an
 * argument; this module fixes only how bytes become a token, and proves that
 * distinct entropy gives distinct tokens.
 */
module Hex {
  import opened Wrappers

  type Byte = b: int | 0 <= b < 256

  /** The source always asks for ten bytes of entropy per token. */
  const TokenBytes: nat := 10

  /** The lower-case hexadecimal digit of a value below sixteen. */
  function Digit(k: nat): (c: char)
    requires k < 16
    ensures '0' <= c <= '9' || 'a' <= c <= 'f'
  {
    if k < 10 then ('0' as int + k) as char else ('a' as int + k - 10) as char
  }

  /** The value of a lower-case hexadecimal digit, or None for any other character. */
  function DigitValue(c: char): (r: Option<nat>)
    ensures r.Some? ==> r.value < 16 && Digit(r.value) == c
  {
    if '0' <= c <= '9' then Some(c as int - '0' as int)
    else if 'a' <= c <= 'f' then Some(c as int - 'a' as int + 10)
    else None
  }

  lemma DigitRoundTrip(k: nat)
    requires k < 16
    ensures DigitValue(Digit(k)) == Some(k)
  {
  }

  /** Hex-encodes a byte string, high nibble first. */
  function Encode(bytes: seq<Byte>): (r: string)
    ensures |r| == 2 * |bytes|
    ensures forall i :: 0 <= i < |r| ==> DigitValue(r[i]).Some?
  {
    if |bytes| == 0 then ""
    else [Digit(bytes[0] / 16), Digit(bytes[0] % 16)] + Encode(bytes[1..])
  }

  /** Reads a hex string back into bytes; None for odd length or a non-digit. */
  function Decode(s: string): (r: Option<seq<Byte>>)
    ensures r.Some? ==> 2 * |r.value| == |s|
    decreases |s|
  {
    if |s| == 0 then Some([])
    else if |s| == 1 then None
    else
      match (DigitValue(s[0]), DigitValue(s[1]), Decode(s[2..]))
      case (Some(hi), Some(lo), Some(rest)) => Some([hi * 16 + lo] + rest)
      case _ => None
  }

  /** Decoding undoes encoding. */
  lemma {:induction false} DecodeEncode(bytes: seq<Byte>)
    ensures Decode(Encode(bytes)) == Some(bytes)
    decreases |bytes|
  {
    if |bytes| > 0 {
      var b := bytes[0];
      DigitRoundTrip(b / 16);
      DigitRoundTrip(b % 16);
      var e := Encode(bytes);
      assert e[2..] == Encode(bytes[1..]);
      DecodeEncode(bytes[1..]);
      assert [b / 16 * 16 + b % 16] + bytes[1..] == bytes;
    }
  }

  /** Distinct entropy yields distinct tokens. */
  lemma EncodeInjective(a: seq<Byte>, b: seq<Byte>)
    requires Encode(a) == Encode(b)
    ensures a == b
  {
    DecodeEncode(a);
    DecodeEncode(b);
  }

  /** `utilRandomHex(count)` given the `count` bytes `os.urandom` returned. */
  function RandomHex(count: nat, entropy: seq<Byte>): (r: string)
    requires |entropy| == count
    ensures |r| == 2 * count
    ensures Decode(r) == Some(entropy)
  {
    DecodeEncode(entropy);
    Encode(entropy)
  }
}

=== FILE: randomness.dfy ===
/**
 * `random.shuffle` and `random.sample` with their random draws passed in.
 *
 * `random.shuffle(x)` is the Fisher-Yates shuffle: for i from |x|-1 down to 1
 * it draws j in [0, i] and swaps x[i] and x[j]. `random.sample(pop, k)` raises
 * ValueError when k > |pop|; otherwise (pool method) it copies the population
 * and, for the i-th pick, draws j below the pool's size, takes pool[j] and
 * moves the pool's last element into slot j. Any draw sequence within the
 * stated bounds is one run of the library routine.
 */
module Randomness {

  /** The draws one shuffle of an `n`-element list consumes. */
  predicate ShuffleDrawsFit(n: nat, draws: seq<nat>) {
    && |draws| == (if n == 0 then 0 else n - 1)
    && forall k :: 0 <= k < |draws| ==> draws[k] <= n - 1 - k
  }

  function Swap<T>(x: seq<T>, i: nat, j: nat): (r: seq<T>)
    requires i < |x| && j < |x|
    ensures |r| == |x| && multiset(r) == multiset(x)
    ensures r[i] == x[j] && r[j] == x[i]
  {
    x[i := x[j]][j := x[i]]
  }

  /** The Fisher-Yates steps for positions `i` down to 1. */
  function ShuffleFrom<T>(x: seq<T>, i: nat, draws: seq<nat>): (r: seq<T>)
    requires i < |x| && |draws| == i
    requires forall k :: 0 <= k < |draws| ==> draws[k] <= i - k
    ensures |r| == |x| && multiset(r) == multiset(x)
    decreases i
  {
    if i == 0 then x
    else ShuffleFrom(Swap(x, i, draws[0]), i - 1, draws[1..])
  }

  /** `random.shuffle(x)`: a rearrangement of the same elements. */
  function Shuffle<T>(x: seq<T>, draws: seq<nat>): (r: seq<T>)
    requires ShuffleDrawsFit(|x|, draws)
    ensures |r| == |x| && multiset(r) == multiset(x)
  {
    if |x| == 0 then x else ShuffleFrom(x, |x| - 1, draws)
  }

  /** The draws a `k`-element sample of an `n`-element population consumes (k <= n). */
  predicate SampleDrawsFit(n: nat, k: nat, draws: seq<nat>) {
    && k <= n && |draws| == k
    && forall i :: 0 <= i < |draws| ==> draws[i] < n - i
  }

  /** Removes slot `j` from the pool by moving the last element into it. */
  function TakeFromPool<T>(pool: seq<T>, j: nat): (rest: seq<T>)
    requires j < |pool|
    ensures |rest| == |pool| - 1
    ensures multiset(rest) + multiset{pool[j]} == multiset(pool)
  {
    var last := |pool| - 1;
    var moved := pool[j := pool[last]];
    assert moved[last] == pool[last];
    assert moved == moved[..last] + [moved[last]];
    assert multiset(moved) == multiset(moved[..last]) + multiset{pool[last]};
    assert multiset(moved) == multiset(pool) - multiset{pool[j]} + multiset{pool[last]};
    moved[..last]
  }

  /**
   * `random.sample(pool, |draws|)` by the pool method. The picks come from
   * distinct positions: together with what is left of the pool they make up
   * the pool exactly.
   */
  function SampleFrom<T>(pool: seq<T>, draws: seq<nat>): (r: seq<T>)
    requires |draws| <= |pool|
    requires forall i :: 0 <= i < |draws| ==> draws[i] < |pool| - i
    ensures |r| == |draws|
    ensures multiset(r) <= multiset(pool)
    decreases |draws|
  {
    if |draws| == 0 then []
    else
      var rest := TakeFromPool(pool, draws[0]);
      [pool[draws[0]]] + SampleFrom(rest, draws[1..])
  }

  /** `random.sample(population, k)` once `k <= |population|` is known. */
  function Sample<T>(population: seq<T>, k: nat, draws: seq<nat>): (r: seq<T>)
    requires SampleDrawsFit(|population|, k, draws)
    ensures |r| == k
    ensures multiset(r) <= multiset(population)
  {
    SampleFrom(population, draws)
  }
}

=== FILE: session_store.dfy ===
/**
 * The namespaced key/value adapter of visualcaptcha/Session.py.
 *
 * The host mapping (the web framework's session object) is modelled as a map
 * from host keys to sub-maps; all CAPTCHA state lives in the one sub-map stored
 * under `namespace`. Python's mutable dict becomes an immutable value here:
 * every operation returns the store as it is afterwards.
 */
module SessionStore {
  import opened Wrappers

  /** The namespace used when the caller names none. */
  const DefaultNamespace: string := "visualcaptcha"

  type Host<V> = map<string, map<string, V>>

  datatype Session<V> = Session(host: Host<V>, namespace: string)

  /** `Session.__init__`: wraps a host mapping under a namespace, `visualcaptcha` unless one is named. */
  function New<V(==)>(host: Host<V>, namespace: string := DefaultNamespace): (s: Session<V>)
    ensures s.host == host && s.namespace == namespace
  {
    Session(host, namespace)
  }

  /** True once the namespace entry exists in the host mapping. */
  predicate Initialised<V(==)>(s: Session<V>) {
    s.namespace in s.host
  }

  /** What a reader sees inside the namespace: nothing while it is missing. */
  function Contents<V(==)>(s: Session<V>): map<string, V> {
    if Initialised(s) then s.host[s.namespace] else map[]
  }

  /** Looks a key up in the namespace as the source's `.get(key, None)` does. */
  function Lookup<V(==)>(s: Session<V>, key: string): Option<V> {
    if key in Contents(s) then Some(Contents(s)[key]) else None
  }

  /** `r` differs from `s` at most in the namespace entry of the host mapping. */
  predicate Framed<V(==)>(s: Session<V>, r: Session<V>) {
    r.namespace == s.namespace && r.host - {s.namespace} == s.host - {s.namespace}
  }

  /** `clear`: resets the namespace to an empty map, whatever it held. */
  function Clear<V(==)>(s: Session<V>): (r: Session<V>)
    ensures Framed(s, r)
    ensures Initialised(r) && Contents(r) == map[]
  {
    s.(host := s.host[s.namespace := map[]])
  }

  /** The lazy initialisation that `get` and `set` both start with. */
  function Touch<V(==)>(s: Session<V>): (r: Session<V>)
    ensures Framed(s, r) && Initialised(r)
    ensures Contents(r) == Contents(s)
    ensures Initialised(s) ==> r == s
  {
    if Initialised(s) then s else Clear(s)
  }

  /** The result of `get`: the store afterwards and the value found. */
  datatype Read<V> = Read(session: Session<V>, value: Option<V>)

  /** `get`: initialises a missing namespace, then reads `key`. */
  function Get<V(==)>(s: Session<V>, key: string): (r: Read<V>)
    ensures Framed(s, r.session) && Initialised(r.session)
    ensures Contents(r.session) == Contents(s)
    ensures r.value.Some? <==> key in Contents(s)
    ensures r.value.Some? ==> r.value.value == Contents(s)[key]
  {
    var t := Touch(s);
    Read(t, if key in t.host[t.namespace] then Some(t.host[t.namespace][key]) else None)
  }

  /** `set`: initialises a missing namespace, then writes `key`. */
  function Set<V(==)>(s: Session<V>, key: string, v: V): (r: Session<V>)
    ensures Framed(s, r) && Initialised(r)
    ensures Contents(r) == Contents(s)[key := v]
  {
    var t := Touch(s);
    t.(host := t.host[t.namespace := t.host[t.namespace][key := v]])
  }

  /* ---- Laws of the adapter ---- */

  /** On a host without the namespace, `get` finds nothing and leaves an empty namespace behind. */
  lemma GetOnFreshHost<V>(s: Session<V>, key: string)
    requires !Initialised(s)
    ensures Get(s, key).value == None
    ensures Initialised(Get(s, key).session)
    ensures Get(s, key).session.host[s.namespace] == map[]
  {
  }

  /** `set(k, v)` followed by `get(k)` returns `v`. */
  lemma GetAfterSet<V>(s: Session<V>, key: string, v: V)
    ensures Get(Set(s, key, v), key).value == Some(v)
  {
  }

  /** `set(k, v)` leaves every other key's reading unchanged. */
  lemma SetLeavesOtherKeys<V>(s: Session<V>, key: string, other: string, v: V)
    requires other != key
    ensures Get(Set(s, key, v), other).value == Get(s, other).value
  {
  }

  /** After `clear`, every key reads as absent. */
  lemma GetAfterClear<V>(s: Session<V>, key: string)
    ensures Get(Clear(s), key).value == None
  {
  }

  /** `get` is a read apart from its lazy initialisation: a second call sees and leaves the same. */
  lemma GetTwice<V>(s: Session<V>, key: string)
    ensures Get(Get(s, key).session, key) == Get(s, key)
  {
  }

  /** `set` on a host without the namespace creates exactly `{key: v}`. */
  lemma SetOnFreshHost<V>(s: Session<V>, key: string, v: V)
    requires !Initialised(s)
    ensures Set(s, key, v).host[s.namespace] == map[key := v]
  {
  }

  /** A session made without a namespace argument keys its data under `visualcaptcha`. */
  lemma DefaultNamespaceIsVisualcaptcha<V>(host: Host<V>)
    ensures New(host).namespace == "visualcaptcha"
    ensures New(host).host == host
  {
  }

  /** Host keys other than the namespace survive any sequence of adapter calls. */
  lemma FramedTransitive<V>(a: Session<V>, b: Session<V>, c: Session<V>)
    requires Framed(a, b) && Framed(b, c)
    ensures Framed(a, c)
  {
  }
}

=== FILE: streaming.dfy ===
/**
 * `streamImage` and `streamAudio` up to the file read: which asset path is
 * requested, and when nothing is streamed. The file system is a predicate
 * `isFile` on absolute paths; a streamed file is identified by its path.
 */
module Streaming {
  import opened Wrappers
  import opened Text
  import opened Captcha

  /** `utilStreamFile`'s answer: False, or the content of the file at `path`. */
  datatype Stream = NotFound | File(path: string)

  const Mp3: string := ".mp3"
  const Ogg: string := ".ogg"
  const Png: string := ".png"
  const SlashPng: string := "/.png"
  const RetinaPng: string := "@2x.png"

  /** The file type `streamAudio` serves unless `ogg` is asked for. */
  const Mp3Type: string := "mp3"

  /** `utilStreamFile`: a missing file yields False. */
  function StreamFile(isFile: string -> bool, path: string): (r: Stream)
    ensures r.File? <==> isFile(path)
    ensures r.File? ==> r.path == path
  {
    if isFile(path) then File(path) else NotFound
  }

  /** The audio asset path: under `audios/`, every `.mp3` (any case) turned into `.ogg` when ogg is asked for. */
  function AudioFilePath(assetsPath: string, fileName: string, fileType: string): (p: string)
    ensures fileType != "ogg" ==> p == assetsPath + "/audios/" + fileName
    ensures |p| == |assetsPath + "/audios/" + fileName|
  {
    var plain := assetsPath + "/audios/" + fileName;
    if fileType == "ogg" then ReplaceAll(plain, Mp3, Ogg) else plain
  }

  /** When the only `.mp3` in the path is the file's extension, the ogg path is its `.ogg` twin. */
  lemma OggTwin(assetsPath: string, stem: string, ext: string)
    requires |ext| == |Mp3| && StartsWithIgnoringCase(ext, Mp3)
    requires CleanBefore(assetsPath + "/audios/" + stem + ext, Mp3, |assetsPath + "/audios/" + stem|)
    ensures AudioFilePath(assetsPath, stem + ext, "ogg") == assetsPath + "/audios/" + stem + Ogg
  {
    var dir := assetsPath + "/audios/";
    assert dir + (stem + ext) == (dir + stem) + ext;
    ReplaceExtension(dir + stem, ext, Mp3, Ogg);
  }

  /**
   * The ogg path has no `.mp3` left in any case, in the file name or in the
   * assets directory: the rewrite covers the whole joined path.
   */
  lemma OggPathHasNoMp3(assetsPath: string, fileName: string)
    ensures var p := AudioFilePath(assetsPath, fileName, "ogg"); CleanBefore(p, Mp3, |p|)
  {
    assert LowerChar(Ogg[0]) == '.';
    assert NoMatchInside(Ogg, Mp3) by {
      forall i | 0 <= i < |Ogg|
        ensures LowerChar(Ogg[i]) != Mp3[0] || (i + 1 < |Ogg| && LowerChar(Ogg[i + 1]) != Mp3[1])
      {
      }
    }
    ReplaceAllLeavesNoMatch(assetsPath + "/audios/" + fileName, Mp3, Ogg);
  }

  /**
   * `streamAudio(fileType)`: False when no valid audio is stored (or its path
   * is empty); otherwise the audio asset, as an ogg twin when asked.
   */
  function StreamAudio(e: Engine, fileType: string := Mp3Type, isFile: string -> bool): (r: Outcome<Stream>)
    ensures r.Returned? && OnlyInitialised(e, r.engine)
    ensures StoredValidAudio(e).None? ==> r.value == NotFound
    ensures r.value.File? <==>
              && StoredValidAudio(e).Some? && StoredValidAudio(e).value.path != ""
              && isFile(AudioFilePath(e.assetsPath, StoredValidAudio(e).value.path, fileType))
    ensures r.value.File? ==>
              r.value.path == AudioFilePath(e.assetsPath, StoredValidAudio(e).value.path, fileType)
  {
    var read := GetValidAudioOption(e);
    var fileName := match read.value case Some(audio) => audio.path case None => "";
    if fileName != "" then Returned(read.engine, StreamFile(isFile, AudioFilePath(e.assetsPath, fileName, fileType)))
    else Returned(read.engine, NotFound)
  }

  /** The image file name, with every `.png` (any case) turned into `@2x.png` for retina. */
  function ImageFileName(fileName: string, isRetina: bool): (r: string)
    ensures r == "" <==> fileName == ""
    ensures !isRetina ==> r == fileName
  {
    if isRetina then ReplaceAll(fileName, Png, RetinaPng) else fileName
  }

  /**
   * The streamed image path as written: for retina only `/.png` (any case) is
   * rewritten in the full path, so an ordinary `dir/name.png` is left as is.
   */
  function ImageFilePathAsWritten(assetsPath: string, fileName: string, isRetina: bool): (p: string)
    ensures !isRetina ==> p == assetsPath + "/images/" + fileName
  {
    var plain := assetsPath + "/images/" + fileName;
    if isRetina then ReplaceAll(plain, SlashPng, RetinaPng) else plain
  }

  /** The streamed image path as intended: the assets directory joined with the retina-rewritten file name. */
  function ImageFilePath(assetsPath: string, fileName: string, isRetina: bool): (p: string)
    ensures assetsPath + "/images/" <= p
    ensures !isRetina ==> p == assetsPath + "/images/" + fileName
    ensures |p| >= |assetsPath + "/images/" + fileName|
  {
    assetsPath + "/images/" + ImageFileName(fileName, isRetina)
  }

  /** With retina asked for, a file `stem.png` whose stem holds no `.png` maps to `stem@2x.png`. */
  lemma RetinaTwin(assetsPath: string, stem: string, ext: string)
    requires |ext| == |Png| && StartsWithIgnoringCase(ext, Png)
    requires CleanBefore(stem + ext, Png, |stem|)
    ensures ImageFilePath(assetsPath, stem + ext, true) == assetsPath + "/images/" + stem + RetinaPng
  {
    ReplaceExtension(stem, ext, Png, RetinaPng);
  }

  /**
   * As written, the retina rewrite leaves every path without a `/` directly
   * followed by `.` unchanged: the plain image is streamed instead of its twin.
   */
  lemma RetinaPathAsWrittenIsPlain(assetsPath: string, fileName: string)
    requires forall i :: 0 <= i < |assetsPath + "/images/" + fileName| - 1 ==>
               !((assetsPath + "/images/" + fileName)[i] == '/' && (assetsPath + "/images/" + fileName)[i + 1] == '.')
    ensures ImageFilePathAsWritten(assetsPath, fileName, true) == assetsPath + "/images/" + fileName
  {
    var plain := assetsPath + "/images/" + fileName;
    forall i | 0 <= i < |plain| - 1
      ensures !(LowerChar(plain[i]) == SlashPng[0] && LowerChar(plain[i + 1]) == SlashPng[1])
    {
    }
    CleanWithoutPair(plain, SlashPng);
    ReplaceAllClean(plain, SlashPng, RetinaPng);
  }

  /** The path `a/images/b.png` has no `/` directly followed by `.`. */
  lemma ExamplePathHasNoSlashDot()
    ensures var plain := "a/images/b.png";
      forall i :: 0 <= i < |plain| - 1 ==> !(plain[i] == '/' && plain[i + 1] == '.')
  {
    var plain := "a/images/b.png";
    forall i | 0 <= i < |plain| - 1
      ensures !(plain[i] == '/' && plain[i + 1] == '.')
    {
      assert plain[i] == '/' ==> i == 1 || i == 8;
    }
  }

  /**
   * The intended retina path for an image `b.png`: the twin `b@2x.png` under
   * `images/`. The literal inputs are fixed by `requires` rather than written
   * into the statement, which keeps the verifier from unfolding `ReplaceAll`
   * on literals.
   */
  lemma RetinaPathExample(assetsPath: string, stem: string, ext: string)
    requires stem == "b" && ext == Png
    ensures ImageFilePath(assetsPath, stem + ext, true) == assetsPath + "/images/b@2x.png"
  {
    var name := stem + ext;
    assert Lower(ext) == Png by {
      assert Lower(ext)[0] == '.' && Lower(ext)[1] == 'p' && Lower(ext)[2] == 'n' && Lower(ext)[3] == 'g';
    }
    assert ext[..|Png|] == ext;
    assert !StartsWithIgnoringCase(name, Png) by {
      assert Lower(name[..|Png|])[0] == LowerChar(name[0]) == 'b';
    }
    assert name[0..] == name;
    RetinaTwin(assetsPath, stem, ext);
    assert assetsPath + "/images/" + stem + RetinaPng == assetsPath + "/images/b@2x.png";
  }

  /**
   * The assets `a` and image `b.png`: as written the retina request streams
   * `a/images/b.png`, not `a/images/b@2x.png`. As above, the literal inputs are
   * fixed by `requires`.
   */
  lemma RetinaPathAsWrittenExample(assetsPath: string, fileName: string)
    requires assetsPath == "a" && fileName == "b.png"
    ensures ImageFilePathAsWritten(assetsPath, fileName, true) == "a/images/b.png"
    ensures ImageFilePath(assetsPath, fileName, true) == "a/images/b@2x.png"
  {
    assert assetsPath + "/images/" + fileName == "a/images/b.png";
    ExamplePathHasNoSlashDot();
    RetinaPathAsWrittenIsPlain(assetsPath, fileName);
    assert fileName == "b" + Png;
    RetinaPathExample(assetsPath, "b", Png);
  }

  /**
   * `streamImage(index, isRetina)`: the lookup by index (with the intended
   * bound), then the image asset under the retina-rewritten file name. No
   * stored list raises TypeError; an index past the list streams nothing.
   */
  function StreamImage(e: Engine, index: nat, isRetina: bool := false, isFile: string -> bool): (r: Outcome<Stream>)
    ensures OnlyInitialised(e, r.engine)
    ensures r.Raised? <==> StoredImages(e).None?
    ensures r.Raised? ==> r.fault == TypeError
    ensures r.Returned? && index >= |StoredImages(e).value| ==> r.value == NotFound
    ensures r.Returned? && index < |StoredImages(e).value| ==>
              var fileName := StoredImages(e).value[index].path;
              r.value == (if fileName == "" then NotFound
                          else StreamFile(isFile, ImageFilePath(e.assetsPath, fileName, isRetina)))
  {
    var at := ImageOptionAtIndex(e, index);
    match at
    case Raised(engine, fault) => Raised(engine, fault)
    case Returned(engine, option) =>
      var fileName := match option case Some(image) => image.path case None => "";
      if ImageFileName(fileName, isRetina) != "" then
        Returned(engine, StreamFile(isFile, ImageFilePath(e.assetsPath, fileName, isRetina)))
      else Returned(engine, NotFound)
  }

  /** Before any `generate`, streaming audio yields nothing. */
  lemma UnchallengedStreamAudio(e: Engine, fileType: string, isFile: string -> bool)
    requires Unchallenged(e)
    ensures StreamAudio(e, fileType, isFile).value == NotFound
  {
  }

  /** `streamAudio()` without a file type streams the stored audio's path under `audios/` unchanged. */
  lemma DefaultStreamAudioIsMp3(e: Engine, isFile: string -> bool)
    requires StoredValidAudio(e).Some? && StoredValidAudio(e).value.path != ""
    ensures var path := e.assetsPath + "/audios/" + StoredValidAudio(e).value.path;
      StreamAudio(e, isFile := isFile).value == (if isFile(path) then File(path) else NotFound)
  {
  }

  /** `streamImage(index)` without retina streams the stored image's path under `images/` unchanged. */
  lemma DefaultStreamImageIsPlain(e: Engine, index: nat, isFile: string -> bool)
    requires StoredImages(e).Some? && index < |StoredImages(e).value|
    requires StoredImages(e).value[index].path != ""
    ensures var path := e.assetsPath + "/images/" + StoredImages(e).value[index].path;
      StreamImage(e, index, isFile := isFile).value == (if isFile(path) then File(path) else NotFound)
  {
  }
}

=== FILE: text.dfy ===
/**
 * The one regular-expression operation the engine uses: `re.sub` with a
 * case-insensitive literal pattern (`(?i)\.mp3`, `(?i)\.png`, `/(?i)\.png`).
 * For a literal pattern `re.sub` scans left to right and replaces every
 * non-overlapping occurrence, resuming after each replaced one. Case folding
 * is ASCII lower-casing, which is what the byte-string patterns match.
 */
module Text {

  function LowerChar(c: char): (r: char)
    ensures 'A' <= c <= 'Z' ==> 'a' <= r <= 'z'
    ensures !('A' <= c <= 'Z') ==> r == c
  {
    if 'A' <= c <= 'Z' then (c as int - 'A' as int + 'a' as int) as char else c
  }

  function Lower(s: string): (r: string)
    ensures |r| == |s|
    ensures forall i :: 0 <= i < |s| ==> r[i] == LowerChar(s[i])
  {
    seq(|s|, i requires 0 <= i < |s| => LowerChar(s[i]))
  }

  /** `s` begins with `pat`, ignoring the case of ASCII letters in `s`. */
  predicate StartsWithIgnoringCase(s: string, pat: string) {
    |pat| <= |s| && Lower(s[..|pat|]) == pat
  }

  /** No occurrence of `pat` starts at any of the first `k` positions of `s`. */
  predicate CleanBefore(s: string, pat: string, k: nat) {
    forall i :: 0 <= i < k && i <= |s| ==> !StartsWithIgnoringCase(s[i..], pat)
  }

  /** `re.sub(pattern, rep, s)` for a lower-case literal `pat` matched case-insensitively. */
  function ReplaceAll(s: string, pat: string, rep: string): (r: string)
    requires |pat| > 0
    ensures |pat| == |rep| ==> |r| == |s|
    ensures |rep| > 0 ==> (|r| == 0 <==> |s| == 0)
    ensures |r| >= |s| || |rep| < |pat|
    decreases |s|
  {
    if |s| == 0 then ""
    else if StartsWithIgnoringCase(s, pat) then rep + ReplaceAll(s[|pat|..], pat, rep)
    else [s[0]] + ReplaceAll(s[1..], pat, rep)
  }

  /** A string with no occurrence of the pattern comes back unchanged. */
  lemma {:induction false} ReplaceAllClean(s: string, pat: string, rep: string)
    requires |pat| > 0
    requires CleanBefore(s, pat, |s|)
    ensures ReplaceAll(s, pat, rep) == s
    decreases |s|
  {
    if |s| > 0 {
      assert s[0..] == s;
      CleanBeforeTail(s, pat, |s|);
      ReplaceAllClean(s[1..], pat, rep);
    }
  }

  /** Cleanliness of a prefix carries over to the tail. */
  lemma CleanBeforeTail(s: string, pat: string, k: nat)
    requires 0 < k <= |s| && CleanBefore(s, pat, k)
    ensures CleanBefore(s[1..], pat, k - 1)
  {
    forall i | 0 <= i < k - 1 && i <= |s[1..]|
      ensures !StartsWithIgnoringCase(s[1..][i..], pat)
    {
      assert s[1..][i..] == s[i + 1..];
    }
  }

  /** A prefix in which no occurrence starts is copied through unchanged. */
  lemma {:induction false} ReplaceAllCleanPrefix(a: string, b: string, pat: string, rep: string)
    requires |pat| > 0
    requires CleanBefore(a + b, pat, |a|)
    ensures ReplaceAll(a + b, pat, rep) == a + ReplaceAll(b, pat, rep)
    decreases |a|
  {
    var s := a + b;
    if |a| == 0 {
      assert s == b;
    } else {
      assert s[0..] == s;
      assert !StartsWithIgnoringCase(s, pat);
      CleanBeforeTail(s, pat, |a|);
      assert s[1..] == a[1..] + b;
      ReplaceAllCleanPrefix(a[1..], b, pat, rep);
      assert [a[0]] + (a[1..] + ReplaceAll(b, pat, rep)) == a + ReplaceAll(b, pat, rep);
    }
  }

  /** An occurrence at the front is replaced and scanning resumes after it. */
  lemma ReplaceAllAtMatch(m: string, b: string, pat: string, rep: string)
    requires |pat| > 0 && |m| == |pat| && StartsWithIgnoringCase(m, pat)
    ensures ReplaceAll(m + b, pat, rep) == rep + ReplaceAll(b, pat, rep)
  {
    assert (m + b)[..|pat|] == m;
    assert (m + b)[|pat|..] == b;
  }

  /**
   * Swapping an extension: when the only occurrence of `pat` in `stem + ext`
   * is the final `ext`, the result is `stem + rep`.
   */
  lemma ReplaceExtension(stem: string, ext: string, pat: string, rep: string)
    requires |pat| > 0 && |ext| == |pat| && StartsWithIgnoringCase(ext, pat)
    requires CleanBefore(stem + ext, pat, |stem|)
    ensures ReplaceAll(stem + ext, pat, rep) == stem + rep
  {
    ReplaceAllCleanPrefix(stem, ext, pat, rep);
    ReplaceAllAtMatch(ext, [], pat, rep);
    assert ext + [] == ext;
    assert rep + [] == rep;
  }

  /** Dropping the first character of a text drops the first character of its folded prefix. */
  lemma LowerDropFirst(r: string, rest: string, c: char, m: nat, p: string)
    requires r == [c] + rest && 1 <= m <= |r|
    requires Lower(r[..m]) == p
    ensures Lower(rest[..m - 1]) == p[1..]
  {
    var w, w' := Lower(r[..m]), Lower(rest[..m - 1]);
    forall q | 0 <= q < |w'|
      ensures w'[q] == p[1..][q]
    {
      assert rest[q] == r[q + 1];
      assert w[q + 1] == p[q + 1];
    }
  }

  /**
   * When the replacement's first character occurs nowhere in the pattern after
   * its first position, a prefix of the result that spells `pat[j..]` (for
   * `j >= 1`) was copied from the text unchanged: no replacement starts inside it.
   */
  lemma {:induction false} ReplaceAllKeepsPartialMatch(t: string, pat: string, rep: string, j: nat)
    requires |pat| > 0 && |rep| > 0 && 1 <= j <= |pat|
    requires forall q :: 1 <= q < |pat| ==> LowerChar(rep[0]) != pat[q]
    requires |pat| - j <= |ReplaceAll(t, pat, rep)|
    requires Lower(ReplaceAll(t, pat, rep)[..|pat| - j]) == pat[j..]
    ensures |pat| - j <= |t| && t[..|pat| - j] == ReplaceAll(t, pat, rep)[..|pat| - j]
    decreases |pat| - j
  {
    var r := ReplaceAll(t, pat, rep);
    if j < |pat| {
      var m := |pat| - j;
      ReplaceAllStep(t, pat, rep);
      assert LowerChar(r[0]) == pat[j] by {
        assert Lower(r[..m])[0] == pat[j..][0];
      }
      if StartsWithIgnoringCase(t, pat) {
        assert false;
      } else {
        var r' := ReplaceAll(t[1..], pat, rep);
        LowerDropFirst(r, r', t[0], m, pat[j..]);
        assert pat[j..][1..] == pat[j + 1..];
        ReplaceAllKeepsPartialMatch(t[1..], pat, rep, j + 1);
        ConsPrefix(t, r, r', m);
      }
    }
  }

  /** One step of the scan: an occurrence at the front starts with `rep`, otherwise the first character is copied. */
  lemma ReplaceAllStep(t: string, pat: string, rep: string)
    requires |pat| > 0 && |t| > 0
    ensures StartsWithIgnoringCase(t, pat) ==> ReplaceAll(t, pat, rep) == rep + ReplaceAll(t[|pat|..], pat, rep)
    ensures !StartsWithIgnoringCase(t, pat) ==> ReplaceAll(t, pat, rep) == [t[0]] + ReplaceAll(t[1..], pat, rep)
  {
  }

  /** Prefixes agree after a shared first character when they agree on the tails. */
  lemma ConsPrefix(t: string, r: string, rest: string, m: nat)
    requires 1 <= m && |t| > 0 && r == [t[0]] + rest
    requires m - 1 <= |t[1..]| && m - 1 <= |rest| && t[1..][..m - 1] == rest[..m - 1]
    ensures m <= |t| && m <= |r| && t[..m] == r[..m]
  {
    assert t[..m] == [t[0]] + t[1..][..m - 1];
    assert r[..m] == [t[0]] + rest[..m - 1];
  }

  /** No position of `rep` can start an occurrence of `pat`, whatever follows `rep`. */
  predicate NoMatchInside(rep: string, pat: string)
    requires |pat| >= 2
  {
    forall i :: 0 <= i < |rep| ==>
      LowerChar(rep[i]) != pat[0] || (i + 1 < |rep| && LowerChar(rep[i + 1]) != pat[1])
  }

  /** Where `rep` has the pattern's first character, the next one is in `rep` and differs from the pattern's second. */
  lemma NoMatchAt(rep: string, pat: string, i: nat)
    requires |pat| >= 2 && NoMatchInside(rep, pat)
    requires i < |rep| && LowerChar(rep[i]) == pat[0]
    ensures i + 1 < |rep| && LowerChar(rep[i + 1]) != pat[1]
  {
  }

  /** A replacement that cannot start an occurrence, put before a clean text, leaves it clean. */
  lemma CleanAfterReplacement(rep: string, rest: string, pat: string)
    requires |pat| >= 2 && NoMatchInside(rep, pat)
    requires CleanBefore(rest, pat, |rest|)
    ensures CleanBefore(rep + rest, pat, |rep + rest|)
  {
    var r := rep + rest;
    forall i | 0 <= i < |r|
      ensures !StartsWithIgnoringCase(r[i..], pat)
    {
      if i < |rep| {
        if |pat| <= |r[i..]| {
          var w := Lower(r[i..][..|pat|]);
          assert w[0] == LowerChar(rep[i]);
          if LowerChar(rep[i]) != pat[0] {
            assert w[0] != pat[0];
          } else {
            NoMatchAt(rep, pat, i);
            assert r[i + 1] == rep[i + 1];
            assert w[1] == LowerChar(rep[i + 1]);
          }
        }
      } else {
        assert r[i..] == rest[i - |rep|..];
      }
    }
  }

  /** A copied first character cannot start an occurrence together with the already clean rest. */
  lemma CleanAfterCopy(s: string, pat: string, rep: string)
    requires |pat| >= 2 && |rep| > 0 && |s| > 0 && !StartsWithIgnoringCase(s, pat)
    requires forall q :: 1 <= q < |pat| ==> LowerChar(rep[0]) != pat[q]
    requires CleanBefore(ReplaceAll(s[1..], pat, rep), pat, |ReplaceAll(s[1..], pat, rep)|)
    ensures CleanBefore(ReplaceAll(s, pat, rep), pat, |ReplaceAll(s, pat, rep)|)
  {
    var r := ReplaceAll(s, pat, rep);
    var r' := ReplaceAll(s[1..], pat, rep);
    ReplaceAllStep(s, pat, rep);
    CopiedHeadNoMatch(s, pat, rep);
    forall i | 0 <= i < |r|
      ensures !StartsWithIgnoringCase(r[i..], pat)
    {
      if i == 0 {
        assert r[0..] == r;
      } else {
        assert r[i..] == r'[i - 1..];
      }
    }
  }

  /** The copied first character does not start an occurrence in the result. */
  lemma CopiedHeadNoMatch(s: string, pat: string, rep: string)
    requires |pat| >= 2 && |rep| > 0 && |s| > 0 && !StartsWithIgnoringCase(s, pat)
    requires forall q :: 1 <= q < |pat| ==> LowerChar(rep[0]) != pat[q]
    ensures !StartsWithIgnoringCase(ReplaceAll(s, pat, rep), pat)
  {
    var r := ReplaceAll(s, pat, rep);
    var r' := ReplaceAll(s[1..], pat, rep);
    ReplaceAllStep(s, pat, rep);
    if StartsWithIgnoringCase(r, pat) {
      LowerDropFirst(r, r', s[0], |pat|, pat);
      ReplaceAllKeepsPartialMatch(s[1..], pat, rep, 1);
      ConsPrefix(s, r, r', |pat|);
      assert false;
    }
  }

  /**
   * Every occurrence is gone after `ReplaceAll`, provided the replacement cannot
   * take part in a new one: each of its positions fails the pattern's first or
   * second character, and its first character is not among the pattern's later ones.
   */
  lemma {:induction false} ReplaceAllLeavesNoMatch(s: string, pat: string, rep: string)
    requires |pat| >= 2 && |rep| > 0
    requires forall q :: 1 <= q < |pat| ==> LowerChar(rep[0]) != pat[q]
    requires NoMatchInside(rep, pat)
    ensures CleanBefore(ReplaceAll(s, pat, rep), pat, |ReplaceAll(s, pat, rep)|)
    decreases |s|
  {
    if |s| > 0 {
      if StartsWithIgnoringCase(s, pat) {
        ReplaceAllLeavesNoMatch(s[|pat|..], pat, rep);
        CleanAfterReplacement(rep, ReplaceAll(s[|pat|..], pat, rep), pat);
      } else {
        ReplaceAllLeavesNoMatch(s[1..], pat, rep);
        CleanAfterCopy(s, pat, rep);
      }
    }
  }

  /**
   * A pattern that begins `c` followed by `d` can only occur where the text has
   * `c` then `d` (case-folded): a text with no such pair has no occurrence.
   */
  lemma CleanWithoutPair(s: string, pat: string)
    requires |pat| >= 2
    requires forall i :: 0 <= i < |s| - 1 ==> !(LowerChar(s[i]) == pat[0] && LowerChar(s[i + 1]) == pat[1])
    ensures CleanBefore(s, pat, |s|)
  {
    forall i | 0 <= i < |s|
      ensures !StartsWithIgnoringCase(s[i..], pat)
    {
      if |pat| <= |s| - i {
        var w := s[i..][..|pat|];
        assert w[0] == s[i] && w[1] == s[i + 1];
        assert Lower(w)[0] != pat[0] || Lower(w)[1] != pat[1];
      }
    }
  }
}

=== FILE: wrappers.dfy ===
/** The optional value used wherever the source returns `None` for "absent". */
module Wrappers {

  datatype Option<+T> = None | Some(value: T)
}
